=== FILE: README.md ===
# LWN paid-article feed, modelled in Dafny

`check-lwn.py` keeps a public RSS feed of LWN.net headlines. Articles
still behind the paywall, marked `[$] ` in their titles, are held back until
they become free. Each run does the following:

- it reads the stored items (the state file) and dates them;
- it fetches the site feed and keeps only the items whose article number is
  not stored yet;
- it dates those items, probing a paid article's page for the day it becomes
  free when no date is stored for it;
- it merges both lists, newest first;
- it keeps every article that is still paid, plus the twenty newest free ones,
  as the new state;
- it publishes the kept articles dated strictly before the current time.

The model covers that run. The modules follow the script's parts:

- `Text`: the pieces of the regular expressions the script uses, as
  leftmost scanners over `seq<char>`. This covers literal search, `\d+`,
  `\s*`, and a leftmost search over a test on positions, which `finditer`
  uses. The other searches (`IndexOf`, `Probe.FindNotice`,
  `Dating.FindElement`) are written out directly, each with its own
  leftmost lemma, which keeps their proofs small.
- `Calendar`: `month_idx` and the dates `datetime` accepts, with midnight
  UTC as seconds since the epoch.
- `Articles`: the `Article` record, a probe response, and the ISO date text
  codec, which is a parameter.
- `Probe`: `get_avail_date`.
- `Feed`: `load` and its `finditer`, with MULTILINE `^` as `Feed.LineStart`.
- `Dating`: `get_date`, as an in-place method on an array, proved against a
  function on sequences.
- `Selection`: the `filter(...)` calls and subsequences.
- `Sorting`: the stable `sorted(..., reverse=True)` by date.
- `Retention`: the `count = 20` loop.
- `Redating`: what dating again does to a dated article. An article that
  `get_date` rewrote, dated again, is unchanged when its title had one
  marker and the date text reads back as the date. The state-file round
  trip in between is not modelled.
- `Reconcile`: the top-level script, as `Reconcile` on loaded lists and
  `Run` on the two texts.

Dates are integers: seconds since 1970-01-01T00:00:00Z. The current time,
the probe of an article page and the ISO codec are parameters.

The model follows the code as written. In particular:

- A paid article is kept however far off its date lies. There is no expiry
  window.
- The state and the published list are newest first.
- Every run publishes again every kept article dated before `now`. Nothing
  remembers what was published before.
- `date_dict` is handed to the second dating pass, but it is never read.
  The fetched articles that reach that pass were filtered down to numbers
  with no entry in it (`Reconcile.StoredDatesNeverRead`).
- A title with two `[$] ` markers loses only the first one, as the comment
  at `check-lwn.py:64` warns. The rewritten item then still reads as paid
  on the next run (`Redating.SecondMarkerStays`). Without a second marker,
  dating the rewritten item again changes nothing
  (`Redating.RedatingIsStable`).

## Model

| member | source | states |
|---|---|---|
| `Calendar.MonthIndex` | check-lwn.py:27 | maps each of the twelve English month names to its number, January being 1, and nothing else |
| `Calendar.MonthNamesDiffer` | check-lwn.py:34 | no two month names match at the same place, so at most one alternative of the month group can match |
| `Calendar.MidnightUtc` | check-lwn.py:35-40 | the instant of a date at 00:00 UTC is a whole number of days after the epoch |
| `Calendar.EpochDay` | check-lwn.py:35-40 | a date's day number lies within the days of its year, and it is non-negative exactly for dates from 1970 on |
| `Calendar.EpochDayCounts` | check-lwn.py:35-40 | 1970-01-01 is day 0, and the day after any valid date is numbered one higher, even across month and year ends and leap days |
| `Probe.MonthFrom` | check-lwn.py:34 | the month group matches only a month name that stands at that position |
| `Probe.DayAt` | check-lwn.py:34 | the day group `[1-9]\|[12][0-9]\|3[01]` followed by `", "` gives a day from 1 to 31 |
| `Probe.DayAtShape` | check-lwn.py:34 | conversely, what the day group reads is written there without a leading zero, and the group ends right after it, so `01` to `09` are never read |
| `Probe.NoticeAt` | check-lwn.py:34 | a notice matched at a position starts with `available on ` and names a month from 1 to 12 and a day from 1 to 31 |
| `Probe.NoticeAtIsMonthThenRest` | check-lwn.py:27-34 | a notice is read at a position exactly when `available on ` stands there, then the name of its month (whose number `month_idx` gives), then a rest of the pattern reading its day and year |
| `Probe.NoticeAtIsShape` | check-lwn.py:27-34 | a notice with a given date is read at a position exactly when, in order, there stand `available on `, the month's name, a space, the day without a leading zero, `", "`, and a maximal run of at least four digits whose decimal value is the year |
| `Probe.FindNotice` | check-lwn.py:34 | `re.search` for the notice: a notice it finds has a month from 1 to 12 and a day from 1 to 31; `FindNoticeAt` and `FindNoticeNone` state which notice it finds |
| `Probe.DayYearAt` | check-lwn.py:34 | the rest of the pattern after the month, `" " <day> ", " <year>`, gives a day from 1 to 31 |
| `Probe.DayYearAtIsShape` | check-lwn.py:34 | the rest of the pattern reads a day and a year exactly when, in order, there stand a space, the day without a leading zero, `", "`, and a maximal digit run of at least four digits whose decimal value is the year |
| `Probe.DayYearRead` | check-lwn.py:34 | a space, a day written without a leading zero, `", "` and a four-digit year followed by no digit are read back as exactly that day and year |
| `Probe.FindNoticeNone` | check-lwn.py:34 | `re.search` finds no notice exactly when no position from the start of the search on holds one |
| `Probe.FindNoticeAt` | check-lwn.py:34 | a notice at a position with none at any earlier position is the one `re.search` returns |
| `Probe.AvailDate` | check-lwn.py:30-40 | status 200 keeps the claimed date. Otherwise the result fails with "no notice" exactly when no position holds a notice. When one does, the first one decides: the result fails with "bad calendar date" exactly when `datetime` rejects the day it names, and otherwise it is midnight UTC of that day |
| `Probe.NoticeEmbedded` | check-lwn.py:34 | the notice text for a day, embedded anywhere in a page and followed by no digit, is matched there and gives back that year, month and day |
| `Probe.NoticeRoundTrip` | check-lwn.py:30-40 | a non-200 page embedding the notice for a valid date (year of four digits), with no notice starting earlier and no digit right after the year, resolves to midnight UTC of exactly that date, whatever date was claimed |
| `Probe.March5th2025` | check-lwn.py:34-40 | a 403 page reading `available on March 5, 2025` resolves to 1741132800, which is 2025-03-05T00:00:00Z |
| `Text.IndexOf` | check-lwn.py:67 | the lazy `.*?</item>` ends at the first occurrence of the closing tag: found at or after the start, with none earlier; nothing is found only when none occurs |
| `Text.DigitEnd` | check-lwn.py:67 | a greedy `\d+` takes the maximal run of digits |
| `Text.SpaceEnd` | check-lwn.py:67 | a greedy `\s*` takes the maximal run of white space |
| `Text.DigitEndOfRun` | check-lwn.py:67 | where a run of digits is followed by no digit, `\d+` ends exactly at the run's end |
| `Text.SpaceEndOfRun` | check-lwn.py:67 | where a run of white space is followed by none, `\s*` ends exactly at the run's end |
| `Text.DecimalOfDigits` | check-lwn.py:36 | `int()` of the digits written for a number gives the number back |
| `Text.LeftmostIsFirst` | check-lwn.py:67 | the leftmost search over positions reports the first position that matches, and finds nothing only when no position does |
| `Feed.ItemAt` | check-lwn.py:67 | a match tried at a position starts there and ends within the text, after it |
| `Feed.ItemShape` | check-lwn.py:67 | a match starts a line, skips white space, has the item prefix, a non-empty maximal digit run whose decimal value is the article number, and ends at the first `</item>` after the digits |
| `Feed.ItemFound` | check-lwn.py:67 | conversely, wherever a text holds that shape, the match tried at its start is exactly that match |
| `Feed.NextItem` | check-lwn.py:67 | one `finditer` step: a match it returns starts at or after the position the search resumes from and ends within the text, after its start; `NextItemIsLeftmost` states which match it returns |
| `Feed.NextItemIsLeftmost` | check-lwn.py:67 | each `finditer` step returns the match that starts first; when it finds none, no match starts anywhere after the current position |
| `Feed.Matches` | check-lwn.py:67 | every match lies within the text, after the position the search resumed from |
| `Feed.MatchesInDocumentOrder` | check-lwn.py:67 | the matches come in document order and do not overlap |
| `Feed.Items` | check-lwn.py:67-72 | every loaded article carries no date yet and a non-empty text |
| `Feed.ItemsFollowMatches` | check-lwn.py:67-71 | there is one article per match, and it is made from that match |
| `Feed.Load` | check-lwn.py:65-72 | the loop appends one article per match, in document order. Each article's id is the decimal value of the captured digits, and its raw text is the whole match |
| `Dating.FindElement` | check-lwn.py:45 | the search for a date element: an element it finds starts at or after the search's start, its text is non-empty, and its closing tag fits before the end of the text; `FindElementIsLeftmost` states which element it finds |
| `Dating.FindElementIsLeftmost` | check-lwn.py:45 | the date search takes the first `<dc:date>` element with a non-empty text free of `<` that is closed by `</dc:date>` |
| `Dating.MatchDate` | check-lwn.py:45 | the search starts at the first `<title>`. The marker is taken exactly when `[$] ` follows that title. The date text is non-empty and lies after both, with room for `</dc:date>` before the end of the text |
| `Dating.ElementAtIsDateElement` | check-lwn.py:45 | an element is found at a position exactly when `<dc:date>` stands there, followed by a non-empty text free of `<` that `</dc:date>` closes |
| `Dating.FoundIsFirstElement` | check-lwn.py:45 | the element the search finds is a date element, and no date element starts between the search's start and it |
| `Dating.NotFoundNoElement` | check-lwn.py:45 | when the search finds nothing, no date element starts anywhere after its start |
| `Dating.MatchDateIsFirstElement` | check-lwn.py:45 | the date text of a match is that of a date element, the first one after the title and the marker when taken |
| `Dating.MatchDateMissing` | check-lwn.py:45 | the search fails exactly when there is no `<title>`, or no date element after the first title and its marker |
| `Dating.Resolve` | check-lwn.py:49 | a stored date never fails. A failure comes only from probing a page with no stored date that is not free. A free page keeps the claimed date, and a probed paid page gives a whole day |
| `Dating.Dated` | check-lwn.py:44-56 | a dated article keeps its number. Without the marker its text is unchanged. With it, the text is the spliced one carrying the new date. No date element means failure, and date text `fromisoformat` rejects fails too, marked or not, before any stored date or probe is used |
| `Dating.UnmarkedKeepsText` | check-lwn.py:46-47 | an unmarked article keeps its text and takes the date its `<dc:date>` states; text the parser rejects stops the run |
| `Dating.StoredDateSkipsProbe` | check-lwn.py:49 | a marked article with a stored date takes that date, and the probe is not consulted |
| `Dating.UnstoredDateAsksProbe` | check-lwn.py:49 | a marked article with no stored date takes what the probe of its page resolves to, and fails when that fails |
| `Dating.MarkerRemovedOnce` | check-lwn.py:50-55 | the new text is the old one with the one marker after `<title>` cut out and the date text replaced by the formatted date; putting both back gives the old text |
| `Dating.Splice` | check-lwn.py:50-55 | the `''.join` of the four pieces is as long as the old text less the four characters of the marker and the old date text, plus the new date; `SpliceUndo` states where each piece lands and that the splice can be undone |
| `Dating.SpliceUndo` | check-lwn.py:50-55 | splicing keeps everything up to `<title>` and from `</dc:date>` on, and places the new date where the old date text was |
| `Dating.DatedAll` | check-lwn.py:43-56 | on success there is one dated article per input, at the same place, with the same number; on failure some article fails that way |
| `Dating.MapAll` | check-lwn.py:43-56 | on success there is one result per article, each the dated article at the same place; on failure some article failed that way |
| `Dating.PrefixFailure` | check-lwn.py:43-56 | once an article fails, the pass stops with that failure whatever follows |
| `Dating.MapAllAgree` | check-lwn.py:43-56 | two dating steps that agree on every article give the same pass |
| `Dating.AbsentEntryIgnored` | check-lwn.py:49 | an article whose number has no stored date is dated as if nothing were stored |
| `Dating.UpdateAll` | check-lwn.py:43-56 | the in-place loop leaves the array holding the dated list, or reports the first failure |
| `Dating.GetDate` | check-lwn.py:42-56 | `get_date` on an array: on success the array holds exactly the dated list; otherwise the first failure is reported |
| `Redating.MarkedMatchFacts` | check-lwn.py:45 | a match with the marker has `<title>` at its first occurrence, the marker right after it, and the date element as the first one after the marker |
| `Redating.SplicedWindows` | check-lwn.py:50-55 | the spliced text is the old text up to `<title>`, then the old text from after the marker up to the date text, then the new date, then the old text from `</dc:date>` on |
| `Redating.RewrittenDateFound` | check-lwn.py:45-47 | on a text rewritten from a title with one marker, the date search finds the same `<title>`, no marker, and the new date as the date text, four characters before the old one |
| `Redating.SecondMarkerKept` | check-lwn.py:64 | on a text rewritten from a title with two markers, the date search finds the same `<title>` followed by the second marker |
| `Redating.RedatingIsStable` | check-lwn.py:44-56 | when the ISO text of a date reads back as that date, dating an article that dating produced gives it back unchanged, for any stored dates and any probe, provided its title had no second marker |
| `Redating.SecondMarkerStays` | check-lwn.py:64 | with a second marker, the rewritten article still reads as paid whenever its date search succeeds |
| `Redating.DatedListIsStable` | check-lwn.py:81-82 | the list a dating pass produced, dated again as a list with no stored dates and any probe, comes back unchanged, provided no title carried a second marker |
| `Selection.Filter` | check-lwn.py:87 | the filtered list is no longer than the input, and every element meets the condition |
| `Selection.FilterMembers` | check-lwn.py:87 | an article survives a filter exactly when it was in the list and meets the condition |
| `Selection.FilterConcat` | check-lwn.py:106 | filtering a concatenation filters each part |
| `Selection.FilterIsSubseq` | check-lwn.py:106 | a filter keeps the input's order: its result is a subsequence of the input |
| `Selection.SubseqMembers` | check-lwn.py:96-104 | everything in a subsequence comes from the list |
| `Sorting.SortNewestFirst` | check-lwn.py:91 | the sort keeps the number of articles |
| `Sorting.SortIsNewestFirst` | check-lwn.py:91 | the sorted list is in non-increasing date order |
| `Sorting.SortIsPermutation` | check-lwn.py:91 | the sorted list has exactly the articles of its input, with multiplicity |
| `Sorting.InsertIsPermutation` | check-lwn.py:91 | one insertion adds its article and loses nothing |
| `Sorting.SortIsStable` | check-lwn.py:91 | for every date, the articles of that date come out in the order they went in |
| `Sorting.InsertKeepsNewestFirst` | check-lwn.py:91 | an insertion into a newest-first list keeps it newest first |
| `Sorting.InsertKeepsDateOrder` | check-lwn.py:91 | an insertion puts its article before the others of its own date and leaves their order alone |
| `Sorting.SortKeepsSorted` | check-lwn.py:91 | a list already newest first comes out unchanged |
| `Sorting.SubseqKeepsNewestFirst` | check-lwn.py:96-104 | dropping articles from a newest-first list keeps it newest first |
| `Retention.Retain` | check-lwn.py:95-104 | the loop builds exactly what `Kept` selects with a quota of twenty |
| `Retention.Kept` | check-lwn.py:95-104 | the loop never adds articles: the kept list is no longer than the input |
| `Retention.KeepsEveryPaidArticle` | check-lwn.py:98-104 | every article dated after `now` is kept, in order |
| `Retention.KeepsFirstFreeArticles` | check-lwn.py:98-103 | the free articles kept (dated at or before `now`) are exactly the first `quota` free ones, or all when there are fewer |
| `Retention.KeptIsSubseq` | check-lwn.py:96-104 | the loop only drops articles: what it keeps is a subsequence of its input |
| `Retention.KeepsAllWithinQuota` | check-lwn.py:95-104 | with quota for every free article, the loop keeps everything |
| `Reconcile.IdSet` | check-lwn.py:83 | `id_set` holds the number of every stored article and no other number, and has no more members than there are articles |
| `Reconcile.DateDict` | check-lwn.py:84 | `date_dict` has an entry for exactly the numbers of the stored articles |
| `Reconcile.LastDateWins` | check-lwn.py:84 | for a number carried by several articles, the last one's date is stored |
| `Reconcile.DatedIds` | check-lwn.py:82-83 | dating keeps the set of article numbers |
| `Reconcile.StoredDatesNeverRead` | check-lwn.py:83-88 | the fetched articles reaching the second dating pass have no stored date, so `ref=date_dict` gives what an empty `ref` gives |
| `Reconcile.StoredCopyWins` | check-lwn.py:83-91 | an article of the new state whose number was stored is the stored article, dated; a fetched copy never replaces it |
| `Reconcile.DateList` | check-lwn.py:82 | `get_date` on a list gives the dated list or the first failure |
| `Reconcile.Snap` | check-lwn.py:90-106 | the new state is no longer than the items. The published list is a subsequence of it, and every published article is dated before `now` |
| `Reconcile.Reconciled` | check-lwn.py:81-106 | a successful run keeps no more articles than were stored and fetched, and needs every stored article to date |
| `Reconcile.Publish` | check-lwn.py:90-106 | the sort, the retention loop and the publish filter give the state and published list of `Snap` |
| `Reconcile.Reconcile` | check-lwn.py:81-106 | the run gives the result `Reconciled` describes: the stored list is dated, the fetched articles not stored are dated, the fetched ones go in front before the sort, and then retention and publishing follow |
| `Reconcile.Run` | check-lwn.py:65-106 | the run on the state text and the feed text is `Reconciled` on the articles `load` finds in them |
| `Reconcile.SnapshotNewestFirst` | check-lwn.py:91-104 | the new state is newest first and a subsequence of the sorted items |
| `Reconcile.SnapshotFromItems` | check-lwn.py:90-104 | nothing enters the new state that was not among the dated items |
| `Reconcile.SnapshotKeepsPaid` | check-lwn.py:97-104 | an article dated after `now` is never dropped |
| `Reconcile.SnapshotKeepsNewestFree` | check-lwn.py:95-104 | at most twenty free articles stay, and they are the first twenty free ones of the sorted list, or all when there are fewer |
| `Reconcile.SnapshotPublishesPast` | check-lwn.py:106 | an article is published exactly when it is in the new state and dated strictly before `now`; the order is kept; one dated exactly `now` is kept and counted as free but not published |
| `Reconcile.SnapshotIsStable` | check-lwn.py:90-106 | running the sort, retention and publish again on the state they produced, at the same `now`, changes nothing and publishes the same articles again |
| `Reconcile.RunKeepsPaid` | check-lwn.py:81-104 | every stored or fetched article of the run dated after `now` is in the new state |

## Left out

- `http_get` (`check-lwn.py:15-25`) is not modelled: the request, the redirect setting and the retry every 60 seconds. Its effect is modelled by its callers. The probe of an article page is a parameter returning the final response. `http_get` retries until the status is one of those expected, so `get_avail_date` only ever sees 200 or 403. In the model `Response.status` is an unconstrained integer, and `AvailDate` treats every status other than 200 as the 403 page. The fetched feed is an input text.
- DatedListIsStable: the lemma dates the dated list itself again. The state file round trip is not modelled: neither the `'\n'.join` write of the raw texts (`check-lwn.py:140-142`) nor the next run's `load` of that text, so the lemma does not show that the reloaded articles are the ones stored.
- `load_from` (`check-lwn.py:74-79`) and the two file writes (`check-lwn.py:140-146`) are not modelled. `Run` takes the state text and the feed text directly. A missing state file reads as the empty text, which loads no articles.
- The RSS template (`check-lwn.py:108-138`) is not modelled. The model stops at the published list, which the template prints in order.
- The feed text's `/rss</link>` to `/</link>` replacement at line 86 is not modelled. `Run` loads the feed text as given.
- `datetime.now` is the parameter `now`.
- `datetime.fromisoformat` and `isoformat` are the parameter `IsoText`. Time zones and naive-versus-aware comparison errors are not modelled: every date is an instant in whole seconds.
- `\d` and `int()` are modelled on ASCII digits only. Python also accepts other Unicode decimal digits.
- `Dating.GetDate`: on a failure the script stops with an exception, having already rewritten the articles before the failing one. The model reports the failure and says nothing about the array's contents then.
- The order of effects across the run is not modelled: which probes happen before a failure, and when the feed is fetched. Only the result of a run is.

=== FILE: articles.dfy ===
/** The data the feed script works on. */
module Articles {
  import opened Wrappers

  /** One feed entry: the LWN article number, the raw `<item>…</item>` text
      exactly as stored or fetched, and the publication date in seconds since
      the epoch. The script creates the object without a date and the dating
      pass sets it; here `Feed.Load` puts 0 there and every read of `date`
      comes after `Dating.GetDate`. */
  datatype Article = Article(id: nat, raw: string, date: int)

  /** What a probe of an article page returns (the transport retries until
      the status is 200 or 403). */
  datatype Response = Response(status: int, body: string)

  /** `datetime.fromisoformat` and `datetime.isoformat`, on dates as integers. */
  datatype IsoText = IsoText(parse: string -> Option<int>, format: int -> string)

  /** Formatting a date and parsing it back gives the same date, and the text
      is non-empty and free of `<` (so it can stand inside an XML element). */
  ghost predicate RoundTrips(text: IsoText) {
    forall d :: text.parse(text.format(d)) == Some(d) && |text.format(d)| > 0 && '<' !in text.format(d)
  }

  /** Why a run stops: the exceptions the script lets escape. */
  datatype Fault =
    | NoDateField      // the `<title>…<dc:date>…</dc:date>` search found nothing
    | BadDateText      // `fromisoformat` rejected the date text
    | NoAvailNotice    // a 403 probe page without an "available on" notice
    | BadCalendarDate  // the notice names a day `datetime` rejects
}

=== FILE: calendar.dfy ===
/** Proleptic Gregorian dates as Python's `datetime` accepts them, and the
    instant of midnight UTC of a date as seconds since 1970-01-01T00:00:00Z. */
module Calendar {
  import opened Text

  const MonthNames: seq<string> := ["January", "February", "March", "April", "May", "June",
                                    "July", "August", "September", "October", "November", "December"]

  const SecondsPerDay := 86400

  /** `month_idx`: each English month name mapped to its number, January being 1. */
  function MonthIndex(): (idx: map<string, nat>)
    ensures |MonthNames| == 12
    ensures forall i :: 0 <= i < 12 ==> MonthNames[i] in idx && idx[MonthNames[i]] == i + 1
    ensures forall name :: name in idx ==> 1 <= idx[name] <= 12 && MonthNames[idx[name] - 1] == name
  {
    assert forall i, j :: 0 <= i < 12 && 0 <= j < 12 && MonthNames[i] == MonthNames[j] ==> i == j by {
      forall i, j | 0 <= i < 12 && 0 <= j < 12 && MonthNames[i] == MonthNames[j] ensures i == j {
        MonthNamesDiffer(MonthNames[i], 0, i, j);
      }
    }
    map i | 0 <= i < 12 :: MonthNames[i] := i + 1
  }

  /** The month number a name's first three letters identify. */
  function MonthByLetters(a: char, b: char, c: char): nat {
    if a == 'J' then (if b == 'a' then 0 else if c == 'n' then 5 else 6)
    else if a == 'F' then 1
    else if a == 'M' then (if c == 'r' then 2 else 4)
    else if a == 'A' then (if b == 'p' then 3 else 7)
    else if a == 'S' then 8
    else if a == 'O' then 9
    else if a == 'N' then 10
    else 11
  }

  /** No month name starts where another one does: the alternatives of the
      month group exclude each other. */
  lemma MonthNamesDiffer(s: string, i: nat, j: nat, k: nat)
    requires j < 12 && k < 12
    requires At(s, i, MonthNames[j]) && At(s, i, MonthNames[k])
    ensures j == k
  {
    forall n | 0 <= n < 12
      ensures |MonthNames[n]| >= 3 && MonthByLetters(MonthNames[n][0], MonthNames[n][1], MonthNames[n][2]) == n
    {
      if n == 0 {} else if n == 1 {} else if n == 2 {} else if n == 3 {}
      else if n == 4 {} else if n == 5 {} else if n == 6 {} else if n == 7 {}
      else if n == 8 {} else if n == 9 {} else if n == 10 {} else {}
    }
    assert s[i..i + |MonthNames[j]|] == MonthNames[j];
    assert s[i..i + |MonthNames[k]|] == MonthNames[k];
    assert MonthNames[j][0] == s[i] == MonthNames[k][0];
    assert MonthNames[j][1] == s[i + 1] == MonthNames[k][1];
    assert MonthNames[j][2] == s[i + 2] == MonthNames[k][2];
  }


  predicate IsLeap(y: int) {
    y % 4 == 0 && (y % 100 != 0 || y % 400 == 0)
  }

  function DaysInMonth(y: int, m: int): nat
    requires 1 <= m <= 12
  {
    if m == 2 then (if IsLeap(y) then 29 else 28)
    else if m == 4 || m == 6 || m == 9 || m == 11 then 30
    else 31
  }

  /** The dates `datetime.datetime(y, m, d)` accepts: years 1 to 9999. */
  predicate ValidDate(y: int, m: int, d: int) {
    1 <= y <= 9999 && 1 <= m <= 12 && 1 <= d <= DaysInMonth(y, m)
  }

  /** Days in the months of year `y` before month `m`. */
  function DaysBeforeMonth(y: int, m: int): nat
    requires 1 <= m <= 13
  {
    if m == 1 then 0 else DaysBeforeMonth(y, m - 1) + DaysInMonth(y, m - 1)
  }

  /** Leap years among 1 .. n. */
  function Leaps(n: nat): int {
    n / 4 - n / 100 + n / 400
  }

  /** Days from 1970-01-01 to January 1st of year `y`. */
  function DaysBeforeYear(y: int): int
    requires 1 <= y
  {
    365 * (y - 1970) + Leaps(y - 1) - Leaps(1969)
  }

  /** Days from 1970-01-01 to the given date (negative before 1970). */
  function EpochDay(y: int, m: int, d: int): (r: int)
    requires ValidDate(y, m, d)
    ensures DaysBeforeYear(y) <= r < DaysBeforeYear(y) + DaysBeforeMonth(y, 13)
    ensures r >= 0 <==> y >= 1970
  {
    MonthsWithinYear(y, m);
    if y >= 1970 then
      YearsBefore(1970, y);
      DaysBeforeYear(y) + DaysBeforeMonth(y, m) + d - 1
    else
      YearsBefore(y, 1969);
      YearLength(y);
      LeapStep(1969);
      DaysBeforeYear(y) + DaysBeforeMonth(y, m) + d - 1
  }

  /** The months before `m` and month `m` itself fit in the year. */
  lemma {:induction false} MonthsWithinYear(y: int, m: int)
    requires 1 <= m <= 12
    decreases 12 - m
    ensures DaysBeforeMonth(y, m) + DaysInMonth(y, m) <= DaysBeforeMonth(y, 13)
  {
    if m < 12 {
      MonthsWithinYear(y, m + 1);
    }
  }

  /** Each year from `y` to `z` holds at least 365 days. */
  lemma {:induction false} YearsBefore(y: int, z: int)
    requires 1 <= y <= z
    decreases z - y
    ensures DaysBeforeYear(y) + 365 * (z - y) <= DaysBeforeYear(z)
  {
    if y < z {
      LeapStep(y);
      YearLength(y);
      YearsBefore(y + 1, z);
    }
  }

  /** Midnight UTC of the given date, in seconds since the epoch. */
  function MidnightUtc(y: int, m: int, d: int): (t: int)
    requires ValidDate(y, m, d)
    ensures t % SecondsPerDay == 0
  {
    EpochDay(y, m, d) * SecondsPerDay
  }

  /** The calendar day after a valid date. */
  function NextDay(y: int, m: int, d: int): (int, int, int)
    requires ValidDate(y, m, d)
  {
    if d < DaysInMonth(y, m) then (y, m, d + 1)
    else if m < 12 then (y, m + 1, 1)
    else (y + 1, 1, 1)
  }

  lemma Step4(y: int)
    requires 1 <= y
    ensures y / 4 - (y - 1) / 4 == if y % 4 == 0 then 1 else 0
  {
    var q, r := (y - 1) / 4, (y - 1) % 4;
    assert y - 1 == 4 * q + r && 0 <= r < 4;
    if r == 3 { assert y == 4 * (q + 1); } else { assert y == 4 * q + r + 1; }
  }

  lemma Step100(y: int)
    requires 1 <= y
    ensures y / 100 - (y - 1) / 100 == if y % 100 == 0 then 1 else 0
  {
    var q, r := (y - 1) / 100, (y - 1) % 100;
    assert y - 1 == 100 * q + r && 0 <= r < 100;
    if r == 99 { assert y == 100 * (q + 1); } else { assert y == 100 * q + r + 1; }
  }

  lemma Step400(y: int)
    requires 1 <= y
    ensures y / 400 - (y - 1) / 400 == if y % 400 == 0 then 1 else 0
  {
    var q, r := (y - 1) / 400, (y - 1) % 400;
    assert y - 1 == 400 * q + r && 0 <= r < 400;
    if r == 399 { assert y == 400 * (q + 1); } else { assert y == 400 * q + r + 1; }
  }

  /** Leap years are exactly the years that move the leap count. */
  lemma LeapStep(y: int)
    requires 1 <= y
    ensures Leaps(y) - Leaps(y - 1) == if IsLeap(y) then 1 else 0
  {
    Step4(y);
    Step100(y);
    Step400(y);
    Multiples(y);
  }

  /** A multiple of 400 is one of 100, and a multiple of 100 one of 4. */
  lemma Multiples(y: int)
    requires 1 <= y
    ensures y % 400 == 0 ==> y % 100 == 0
    ensures y % 100 == 0 ==> y % 4 == 0
  {
    var q4, r4 := y / 4, y % 4;
    var q100, r100 := y / 100, y % 100;
    var q400, r400 := y / 400, y % 400;
    assert y == 4 * q4 + r4 && 0 <= r4 < 4;
    assert y == 100 * q100 + r100 && 0 <= r100 < 100;
    assert y == 400 * q400 + r400 && 0 <= r400 < 400;
    if r400 == 0 {
      assert r100 == 100 * (4 * q400 - q100);
    }
    if r100 == 0 {
      assert r4 == 4 * (25 * q100 - q4);
    }
  }

  /** A year has 365 days, 366 when it is a leap year. */
  lemma YearLength(y: int)
    ensures DaysBeforeMonth(y, 13) == 365 + (if IsLeap(y) then 1 else 0)
  {
    var feb := DaysInMonth(y, 2);
    assert DaysBeforeMonth(y, 2) == 31;
    assert DaysBeforeMonth(y, 3) == 31 + feb;
    assert DaysBeforeMonth(y, 4) == 62 + feb;
    assert DaysBeforeMonth(y, 5) == 92 + feb;
    assert DaysBeforeMonth(y, 6) == 123 + feb;
    assert DaysBeforeMonth(y, 7) == 153 + feb;
    assert DaysBeforeMonth(y, 8) == 184 + feb;
    assert DaysBeforeMonth(y, 9) == 215 + feb;
    assert DaysBeforeMonth(y, 10) == 245 + feb;
    assert DaysBeforeMonth(y, 11) == 276 + feb;
    assert DaysBeforeMonth(y, 12) == 306 + feb;
    assert DaysBeforeMonth(y, 13) == 337 + feb;
  }

  /** 1970-01-01 is day zero, and consecutive calendar days are consecutive
      day numbers: together these pin `EpochDay` down for every valid date. */
  lemma {:induction false} EpochDayCounts(y: int, m: int, d: int)
    requires ValidDate(y, m, d)
    ensures EpochDay(1970, 1, 1) == 0
    ensures var (y', m', d') := NextDay(y, m, d);
            y' <= 9999 ==> ValidDate(y', m', d') && EpochDay(y', m', d') == EpochDay(y, m, d) + 1
  {
    if d == DaysInMonth(y, m) && m == 12 {
      LeapStep(y);
      YearLength(y);
      assert DaysBeforeYear(y + 1) == DaysBeforeYear(y) + DaysBeforeMonth(y, 13);
    }
  }
}

=== FILE: dating.dfy ===
/** Reading and resolving the date of each article (`get_date`): the search
    `(?s)<title>(?P<dollar>\[\$\] )?.*?<dc:date>(?P<date>[^<]+)</dc:date>` on
    the item text, the lookup or probe for paid articles, and the rewrite of
    the item text. */
module Dating {
  import opened Wrappers
  import opened Text
  import opened Articles
  import opened Probe
  import Calendar

  const TitleOpen := "<title>"
  const Marker := "[$] "
  const DateOpen := "<dc:date>"
  const DateClose := "</dc:date>"

  /** Where the date search matched in an item's text: the `<title>` it
      started at, whether the `[$] ` marker followed it, and the bounds of
      the date text. */
  datatype DateMatch = DateMatch(title: nat, marked: bool, textStart: nat, textEnd: nat)

  /** An element starting at `k`: `open`, then text up to the first `<`,
      which is not empty and whose `<` begins `close`. For the date element
      the greedy `[^<]+` cannot stop earlier, since `</dc:date>` starts with
      `<`. The result is where the text ends. */
  function ElementAt(s: string, k: nat, open: string, close: string): (r: Option<nat>)
    requires k <= |s|
    ensures r.Some? ==> At(s, k, open) && k + |open| < r.value && At(s, r.value, close)
  {
    if !At(s, k, open) then None
    else
      var j := Find(s, '<', k + |open|);
      if k + |open| < j && At(s, j, close) then Some(j) else None
  }

  /** The first such element at or after `from` (what the lazy `.*?` reaches
      first): where it starts and where its text ends. */
  function FindElement(s: string, from: nat, open: string, close: string): (r: Option<(nat, nat)>)
    requires from <= |s|
    decreases |s| - from
    ensures r.Some? ==> from <= r.value.0 && r.value.0 + |open| < r.value.1 && r.value.1 + |close| <= |s|
  {
    match ElementAt(s, from, open, close)
    case Some(e) => Some((from, e))
    case None => if from == |s| then None else FindElement(s, from + 1, open, close)
  }

  /** `FindElement` finds the element that starts first. */
  lemma {:induction false} FindElementIsLeftmost(s: string, from: nat, open: string, close: string)
    requires from <= |s|
    decreases |s| - from
    ensures FindElement(s, from, open, close).Some? ==>
      ElementAt(s, FindElement(s, from, open, close).value.0, open, close) == Some(FindElement(s, from, open, close).value.1)
    ensures FindElement(s, from, open, close).Some? ==>
      forall k :: from <= k < FindElement(s, from, open, close).value.0 ==> ElementAt(s, k, open, close).None?
    ensures FindElement(s, from, open, close).None? ==>
      forall k :: from <= k <= |s| ==> ElementAt(s, k, open, close).None?
  {
    match ElementAt(s, from, open, close)
    case Some(e) =>
    case None =>
      if from < |s| {
        FindElementIsLeftmost(s, from + 1, open, close);
        assert FindElement(s, from, open, close) == FindElement(s, from + 1, open, close);
      }
  }

  /** The date search on an item's text. A match can start only at the first
      `<title>`: a later title is followed by no date element that the first
      one does not reach too. The optional marker is taken when it is there;
      leaving it out cannot help, since none of its four characters starts a
      date element. */
  function MatchDate(raw: string): (r: Option<DateMatch>)
    ensures r.Some? ==> At(raw, r.value.title, TitleOpen)
    ensures r.Some? ==> forall t :: 0 <= t < r.value.title ==> !At(raw, t, TitleOpen)
    ensures r.Some? ==> (r.value.marked <==> At(raw, r.value.title + |TitleOpen|, Marker))
    ensures r.Some? ==> var m := r.value;
      m.title + |TitleOpen| + (if m.marked then |Marker| else 0) + |DateOpen| <= m.textStart < m.textEnd
      && m.textEnd + |DateClose| <= |raw|
  {
    match IndexOf(raw, TitleOpen, 0)
    case None => None
    case Some(t) => DateAfter(raw, t, At(raw, t + |TitleOpen|, Marker))
  }

  /** The rest of the date search once `<title>` is found at `t`: the first
      date element after it, and after the marker when `marked`. */
  function DateAfter(raw: string, t: nat, marked: bool): (r: Option<DateMatch>)
    requires t + |TitleOpen| + (if marked then |Marker| else 0) <= |raw|
    ensures r.Some? ==> r.value.title == t && r.value.marked == marked
    ensures r.Some? ==> var m := r.value;
      t + |TitleOpen| + (if marked then |Marker| else 0) + |DateOpen| <= m.textStart < m.textEnd
      && m.textEnd + |DateClose| <= |raw|
  {
    match FindElement(raw, t + |TitleOpen| + (if marked then |Marker| else 0), DateOpen, DateClose)
    case None => None
    case Some((k, e)) => Some(DateMatch(t, marked, k + |DateOpen|, e))
  }

  /** A date element as the pattern spells it: `<dc:date>` at `k`, then a
      non-empty text free of `<` up to `e`, where `</dc:date>` stands. */
  predicate DateElement(s: string, k: nat, e: nat) {
    && At(s, k, DateOpen) && k + |DateOpen| < e && At(s, e, DateClose)
    && forall i :: k + |DateOpen| <= i < e ==> s[i] != '<'
  }

  /** `ElementAt` finds exactly the date elements: the `<` that ends the
      text is the one `</dc:date>` begins with. */
  lemma ElementAtIsDateElement(s: string, k: nat, e: nat)
    requires k <= |s|
    ensures ElementAt(s, k, DateOpen, DateClose) == Some(e) <==> DateElement(s, k, e)
  {
    if At(s, k, DateOpen) {
      FindSkips(s, '<', k + |DateOpen|);
      if DateElement(s, k, e) {
        assert s[e] == s[e..e + |DateClose|][0] == '<';
        FindAt(s, '<', k + |DateOpen|, e);
      }
    }
  }

  /** What `FindElement` finds is a date element with none before it. */
  lemma FoundIsFirstElement(s: string, from: nat, k: nat, e: nat)
    requires from <= |s| && FindElement(s, from, DateOpen, DateClose) == Some((k, e))
    ensures DateElement(s, k, e)
    ensures forall q, e' :: from <= q < k ==> !DateElement(s, q, e')
  {
    FindElementIsLeftmost(s, from, DateOpen, DateClose);
    ElementAtIsDateElement(s, k, e);
    forall q, e' | from <= q < k ensures !DateElement(s, q, e') {
      ElementAtIsDateElement(s, q, e');
    }
  }

  /** When `FindElement` finds nothing, no date element starts from `from` on. */
  lemma NotFoundNoElement(s: string, from: nat)
    requires from <= |s| && FindElement(s, from, DateOpen, DateClose).None?
    ensures forall q, e :: from <= q ==> !DateElement(s, q, e)
  {
    FindElementIsLeftmost(s, from, DateOpen, DateClose);
    forall q, e | from <= q ensures !DateElement(s, q, e) {
      if q <= |s| {
        ElementAtIsDateElement(s, q, e);
      }
    }
  }

  /** A match of the date search captures the text of a date element, and
      that element is the first one after `<title>` and the marker. */
  lemma MatchDateIsFirstElement(raw: string)
    requires MatchDate(raw).Some?
    ensures var m := MatchDate(raw).value;
      && DateElement(raw, m.textStart - |DateOpen|, m.textEnd)
      && forall q, e :: m.title + |TitleOpen| + (if m.marked then |Marker| else 0) <= q < m.textStart - |DateOpen| ==>
           !DateElement(raw, q, e)
  {
    var m := MatchDate(raw).value;
    var from := m.title + |TitleOpen| + (if m.marked then |Marker| else 0);
    assert FindElement(raw, from, DateOpen, DateClose) == Some((m.textStart - |DateOpen|, m.textEnd));
    FoundIsFirstElement(raw, from, m.textStart - |DateOpen|, m.textEnd);
  }

  /** The date search fails exactly when the text has no `<title>`, or no
      date element follows the first one (and its marker). */
  lemma MatchDateMissing(raw: string)
    ensures MatchDate(raw).None? <==>
      || IndexOf(raw, TitleOpen, 0).None?
      || var t := IndexOf(raw, TitleOpen, 0).value;
         forall q, e :: t + |TitleOpen| + (if At(raw, t + |TitleOpen|, Marker) then |Marker| else 0) <= q ==>
           !DateElement(raw, q, e)
  {
    if IndexOf(raw, TitleOpen, 0).Some? {
      var t := IndexOf(raw, TitleOpen, 0).value;
      var from := t + |TitleOpen| + (if At(raw, t + |TitleOpen|, Marker) then |Marker| else 0);
      match FindElement(raw, from, DateOpen, DateClose)
      case Some((k, e)) =>
        FoundIsFirstElement(raw, from, k, e);
      case None =>
        NotFoundNoElement(raw, from);
    }
  }

  /** The date text the search captured. */
  function DateText(raw: string): string
    requires MatchDate(raw).Some?
  {
    raw[MatchDate(raw).value.textStart..MatchDate(raw).value.textEnd]
  }

  /** The item text with the marker taken out and the date text replaced. */
  function Splice(raw: string, m: DateMatch, date: string): (r: string)
    requires m.marked
    requires m.title + |TitleOpen| + |Marker| <= m.textStart <= m.textEnd <= |raw|
    ensures |r| == |raw| - |Marker| - (m.textEnd - m.textStart) + |date|
  {
    Paste(raw, m.title + |TitleOpen|, |Marker|, m.textStart, m.textEnd, date)
  }

  /** The inverse of `Splice`: the marker put back after `<title>` and the
      `width` characters of new date text replaced by `was`. */
  function Unsplice(spliced: string, m: DateMatch, width: nat, was: string): string
    requires m.title + |TitleOpen| + |Marker| <= m.textStart
    requires m.textStart - |Marker| + width <= |spliced|
  {
    Unpaste(spliced, m.title + |TitleOpen|, Marker, m.textStart - |Marker|, width, was)
  }

  /** `s` with the `n` characters at `t` cut out and `s[i..j]` replaced by `d`. */
  function Paste(s: string, t: nat, n: nat, i: nat, j: nat, d: string): string
    requires t + n <= i <= j <= |s|
  {
    s[..t] + s[t + n..i] + d + s[j..]
  }

  /** `x` with `cut` put back at `t` and the `width` characters at `k` replaced by `was`. */
  function Unpaste(x: string, t: nat, cut: string, k: nat, width: nat, was: string): string
    requires t <= k && k + width <= |x|
  {
    x[..t] + cut + x[t..k] + was + x[k + width..]
  }

  /** The date of a paid article: the stored one when there is one, else the
      probe's answer for the article page. */
  function Resolve(id: nat, claimed: int, ref: map<nat, int>, probe: nat -> Response): (r: Result<int, Fault>)
    ensures id in ref ==> r.Ok?
    ensures r.Err? ==> id !in ref && probe(id).status != 200
    ensures id !in ref && probe(id).status == 200 ==> r == Ok(claimed)
    ensures id !in ref && probe(id).status != 200 && r.Ok? ==> r.value % Calendar.SecondsPerDay == 0
  {
    if id in ref then Ok(ref[id]) else AvailDate(probe(id), claimed)
  }

  /** One article after `get_date`: its date read from `<dc:date>`, and for
      a paid article the resolved date, written back into the text. */
  function Dated(a: Article, ref: map<nat, int>, probe: nat -> Response, text: IsoText): (r: Result<Article, Fault>)
    ensures r.Ok? ==> r.value.id == a.id && MatchDate(a.raw).Some?
    ensures r.Ok? && !MatchDate(a.raw).value.marked ==> r.value.raw == a.raw
    ensures r.Ok? && MatchDate(a.raw).value.marked ==>
      r.value.raw == Splice(a.raw, MatchDate(a.raw).value, text.format(r.value.date))
    ensures MatchDate(a.raw).None? ==> r == Err(NoDateField)
    ensures MatchDate(a.raw).Some? && text.parse(DateText(a.raw)).None? ==> r == Err(BadDateText)
  {
    match MatchDate(a.raw)
    case None => Err(NoDateField)
    case Some(m) =>
      match text.parse(a.raw[m.textStart..m.textEnd])
      case None => Err(BadDateText)
      case Some(claimed) =>
        if !m.marked then Ok(a.(date := claimed))
        else
          match Resolve(a.id, claimed, ref, probe)
          case Err(f) => Err(f)
          case Ok(d) => Ok(a.(raw := Splice(a.raw, m, text.format(d)), date := d))
  }

  /** An article without the marker keeps its text and takes the date its
      `<dc:date>` element states. */
  lemma UnmarkedKeepsText(a: Article, ref: map<nat, int>, probe: nat -> Response, text: IsoText)
    requires MatchDate(a.raw).Some? && !MatchDate(a.raw).value.marked
    ensures text.parse(DateText(a.raw)).Some? ==>
      Dated(a, ref, probe, text) == Ok(Article(a.id, a.raw, text.parse(DateText(a.raw)).value))
    ensures text.parse(DateText(a.raw)).None? ==> Dated(a, ref, probe, text) == Err(BadDateText)
  {
  }

  /** A paid article with a stored date takes that date, and the probe is not
      consulted: any probe gives the same result. */
  lemma StoredDateSkipsProbe(a: Article, ref: map<nat, int>, probe: nat -> Response, other: nat -> Response, text: IsoText)
    requires MatchDate(a.raw).Some? && MatchDate(a.raw).value.marked && a.id in ref
    ensures Dated(a, ref, probe, text) == Dated(a, ref, other, text)
    ensures Dated(a, ref, probe, text).Ok? ==> Dated(a, ref, probe, text).value.date == ref[a.id]
    ensures text.parse(DateText(a.raw)).Some? ==> Dated(a, ref, probe, text).Ok?
  {
  }

  /** A paid article without a stored date takes what the probe of its page
      resolves to, and fails when that fails. */
  lemma UnstoredDateAsksProbe(a: Article, ref: map<nat, int>, probe: nat -> Response, text: IsoText)
    requires MatchDate(a.raw).Some? && MatchDate(a.raw).value.marked && a.id !in ref
    requires text.parse(DateText(a.raw)).Some?
    ensures var avail := AvailDate(probe(a.id), text.parse(DateText(a.raw)).value);
      && (Dated(a, ref, probe, text).Ok? <==> avail.Ok?)
      && (avail.Ok? ==> Dated(a, ref, probe, text).value.date == avail.value)
      && (avail.Err? ==> Dated(a, ref, probe, text) == Err(avail.error))
  {
  }

  /** The new text of a paid article is the old one with the one marker
      after `<title>` taken out and the date text replaced by the resolved
      date: everything up to `<title>` and from `</dc:date>` on is unchanged,
      and putting the marker and the old date text back gives the old text. */
  lemma MarkerRemovedOnce(a: Article, b: Article, m: DateMatch, ref: map<nat, int>, probe: nat -> Response, text: IsoText)
    requires MatchDate(a.raw) == Some(m) && m.marked && Dated(a, ref, probe, text) == Ok(b)
    ensures b.raw == Splice(a.raw, m, text.format(b.date))
    ensures a.raw == Unsplice(b.raw, m, |text.format(b.date)|, a.raw[m.textStart..m.textEnd])
  {
    SpliceUndo(a.raw, m, text.format(b.date));
  }

  /** Splicing keeps everything up to `<title>` and from `</dc:date>` on,
      drops the four marker characters, and puts `date` where the date text
      was; putting the marker and the old date text back gives the old text. */
  lemma SpliceUndo(raw: string, m: DateMatch, date: string)
    requires m.marked
    requires m.title + |TitleOpen| + |Marker| <= m.textStart <= m.textEnd <= |raw|
    requires At(raw, m.title + |TitleOpen|, Marker)
    ensures |Splice(raw, m, date)| == |raw| - |Marker| - (m.textEnd - m.textStart) + |date|
    ensures Splice(raw, m, date)[..m.title + |TitleOpen|] == raw[..m.title + |TitleOpen|]
    ensures Splice(raw, m, date)[m.textStart - |Marker|..m.textStart - |Marker| + |date|] == date
    ensures Splice(raw, m, date)[m.textStart - |Marker| + |date|..] == raw[m.textEnd..]
    ensures Unsplice(Splice(raw, m, date), m, |date|, raw[m.textStart..m.textEnd]) == raw
  {
    SplicePieces(raw, m, date);
    SpliceInverse(raw, m, date);
  }

  /** Where the pieces of the old text and the new date land in the spliced text. */
  lemma SplicePieces(raw: string, m: DateMatch, date: string)
    requires m.marked
    requires m.title + |TitleOpen| + |Marker| <= m.textStart <= m.textEnd <= |raw|
    requires At(raw, m.title + |TitleOpen|, Marker)
    ensures Splice(raw, m, date)[..m.title + |TitleOpen|] == raw[..m.title + |TitleOpen|]
    ensures Splice(raw, m, date)[m.textStart - |Marker|..m.textStart - |Marker| + |date|] == date
    ensures Splice(raw, m, date)[m.textStart - |Marker| + |date|..] == raw[m.textEnd..]
  {
    PasteUndo(raw, m.title + |TitleOpen|, Marker, m.textStart, m.textEnd, date);
  }

  /** Putting the marker and the old date text back undoes the splice. */
  lemma SpliceInverse(raw: string, m: DateMatch, date: string)
    requires m.marked
    requires m.title + |TitleOpen| + |Marker| <= m.textStart <= m.textEnd <= |raw|
    requires At(raw, m.title + |TitleOpen|, Marker)
    ensures Unsplice(Splice(raw, m, date), m, |date|, raw[m.textStart..m.textEnd]) == raw
  {
    PasteUndo(raw, m.title + |TitleOpen|, Marker, m.textStart, m.textEnd, date);
  }

  /** Cutting `cut` out at `t` and pasting `d` over `s[i..j]`, and back. */
  lemma PasteUndo(s: string, t: nat, cut: string, i: nat, j: nat, d: string)
    requires t + |cut| <= i <= j <= |s| && s[t..t + |cut|] == cut
    ensures |Paste(s, t, |cut|, i, j, d)| == |s| - |cut| - (j - i) + |d|
    ensures Paste(s, t, |cut|, i, j, d)[..t] == s[..t]
    ensures Paste(s, t, |cut|, i, j, d)[t..i - |cut|] == s[t + |cut|..i]
    ensures Paste(s, t, |cut|, i, j, d)[i - |cut|..i - |cut| + |d|] == d
    ensures Paste(s, t, |cut|, i, j, d)[i - |cut| + |d|..] == s[j..]
    ensures Unpaste(Paste(s, t, |cut|, i, j, d), t, cut, i - |cut|, |d|, s[i..j]) == s
  {
    ConcatParts(s[..t], s[t + |cut|..i], d, s[j..]);
    SliceJoin(s, t, t + |cut|, i, j);
  }

  /** A string is the concatenation of its slices between ascending cuts. */
  lemma SliceJoin(s: string, i: nat, j: nat, k: nat, l: nat)
    requires i <= j <= k <= l <= |s|
    ensures s == s[..i] + s[i..j] + s[j..k] + s[k..l] + s[l..]
  {
    assert s[..j] == s[..i] + s[i..j];
    assert s[..k] == s[..j] + s[j..k];
    assert s[..l] == s[..k] + s[k..l];
    assert s == s[..l] + s[l..];
  }

  /** Where the four pieces of a concatenation lie in it. */
  lemma ConcatParts(h: string, m: string, d: string, t: string)
    ensures var x := h + m + d + t;
      && |x| == |h| + |m| + |d| + |t|
      && x[..|h|] == h
      && x[|h|..|h| + |m|] == m
      && x[|h| + |m|..|h| + |m| + |d|] == d
      && x[|h| + |m| + |d|..] == t
  {
    var x := h + m + d + t;
    assert x == h + (m + (d + t));
    assert x[|h|..] == m + (d + t);
    assert x[|h| + |m|..] == d + t;
  }

  /** The dating step with the stored dates, the probe and the date text fixed. */
  function Dater(ref: map<nat, int>, probe: nat -> Response, text: IsoText): Article -> Result<Article, Fault> {
    a => Dated(a, ref, probe, text)
  }

  /** `f` applied to each element in turn; the first failure ends the pass. */
  function MapAll<T, E>(s: seq<T>, f: T -> Result<T, E>): (r: Result<seq<T>, E>)
    ensures r.Ok? ==> |r.value| == |s|
    ensures r.Ok? ==> forall i :: 0 <= i < |s| ==> f(s[i]) == Ok(r.value[i])
    ensures r.Err? ==> exists i :: 0 <= i < |s| && f(s[i]) == Err(r.error)
  {
    if s == [] then Ok([])
    else
      match MapAll(s[..|s| - 1], f)
      case Err(e) => Err(e)
      case Ok(done) =>
        match f(s[|s| - 1])
        case Err(e) => Err(e)
        case Ok(x) => Ok(done + [x])
  }

  /** `get_date` over a list: every article dated in turn; the first failure
      stops the run. */
  function DatedAll(s: seq<Article>, ref: map<nat, int>, probe: nat -> Response, text: IsoText): (r: Result<seq<Article>, Fault>)
    ensures r.Ok? ==> |r.value| == |s|
    ensures r.Ok? ==> forall i :: 0 <= i < |s| ==> Dated(s[i], ref, probe, text) == Ok(r.value[i]) && r.value[i].id == s[i].id
    ensures r.Err? ==> exists i :: 0 <= i < |s| && Dated(s[i], ref, probe, text) == Err(r.error)
  {
    MapAll(s, Dater(ref, probe, text))
  }

  /** Once a prefix fails, the whole pass fails the same way. */
  lemma {:induction false} PrefixFailure<T, E>(s: seq<T>, n: nat, f: T -> Result<T, E>)
    requires n <= |s| && MapAll(s[..n], f).Err?
    ensures MapAll(s, f) == MapAll(s[..n], f)
    decreases |s| - n
  {
    if n < |s| {
      assert s[..n + 1][..n] == s[..n];
      PrefixFailure(s, n + 1, f);
    } else {
      assert s[..n] == s;
    }
  }

  /** Two steps that agree on every element give the same pass. */
  lemma {:induction false} MapAllAgree<T, E>(s: seq<T>, f: T -> Result<T, E>, g: T -> Result<T, E>)
    requires forall i :: 0 <= i < |s| ==> f(s[i]) == g(s[i])
    ensures MapAll(s, f) == MapAll(s, g)
  {
    if s != [] {
      MapAllAgree(s[..|s| - 1], f, g);
    }
  }

  /** An article whose number has no stored date is dated as if nothing were stored. */
  lemma AbsentEntryIgnored(a: Article, ref: map<nat, int>, probe: nat -> Response, text: IsoText)
    requires a.id !in ref
    ensures Dated(a, ref, probe, text) == Dated(a, map[], probe, text)
  {
  }

  /** Handling one more element extends the finished prefix, or ends the pass. */
  lemma MapAllStep<T, E>(s: seq<T>, i: nat, f: T -> Result<T, E>)
    requires i < |s| && MapAll(s[..i], f).Ok?
    ensures f(s[i]).Ok? ==> MapAll(s[..i + 1], f) == Ok(MapAll(s[..i], f).value + [f(s[i]).value])
    ensures f(s[i]).Err? ==> MapAll(s[..i + 1], f) == Err(f(s[i]).error)
  {
    assert s[..i + 1][..i] == s[..i];
  }

  /** Each element of the array replaced by `f` of it, in place and in order;
      the first failure is reported and ends the pass. */
  method UpdateAll<T, E>(a: array<T>, f: T -> Result<T, E>) returns (failure: Option<E>)
    modifies a
    ensures MapAll(old(a[..]), f).Ok? ==> failure.None? && a[..] == MapAll(old(a[..]), f).value
    ensures MapAll(old(a[..]), f).Err? ==> failure == Some(MapAll(old(a[..]), f).error)
  {
    ghost var s := a[..];
    for i := 0 to a.Length
      invariant a[i..] == s[i..]
      invariant MapAll(s[..i], f) == Ok(a[..i])
    {
      assert a[i] == s[i];
      MapAllStep(s, i, f);
      var r := f(a[i]);
      if r.Err? {
        PrefixFailure(s, i + 1, f);
        return Some(r.error);
      }
      a[i] := r.value;
      assert a[..i + 1] == a[..i] + [r.value];
    }
    assert s[..a.Length] == s;
    assert a[..a.Length] == a[..];
    return None;
  }

  /** `get_date`: each article of the array is dated and updated in place.
      On success the array holds exactly the dated list; otherwise the first
      failure is reported. */
  method GetDate(articles: array<Article>, ref: map<nat, int>, probe: nat -> Response, text: IsoText)
    returns (failure: Option<Fault>)
    modifies articles
    ensures DatedAll(old(articles[..]), ref, probe, text).Ok? ==>
      failure.None? && articles[..] == DatedAll(old(articles[..]), ref, probe, text).value
    ensures DatedAll(old(articles[..]), ref, probe, text).Err? ==>
      failure == Some(DatedAll(old(articles[..]), ref, probe, text).error)
  {
    failure := UpdateAll(articles, Dater(ref, probe, text));
  }
}

=== FILE: feed.dfy ===
/** Splitting a feed document into articles: `load` and the
    `(?ms)^\s*<item rdf:about="https://lwn\.net/Articles/(?P<article_id>\d+).*?</item>`
    search it repeats over the text. */
module Feed {
  import opened Wrappers
  import opened Text
  import opened Articles

  const ItemOpen := "<item rdf:about=\"https://lwn.net/Articles/"
  const ItemClose := "</item>"

  /** Where one match lies: it spans `s[start..end]`, and the article number
      read from its digits `s[idStart..idEnd]` is `id`. */
  datatype ItemMatch = ItemMatch(start: nat, idStart: nat, idEnd: nat, end: nat, id: nat)

  /** `^` under MULTILINE: the start of the text or just after a newline. */
  predicate LineStart(s: string, p: nat) {
    p == 0 || (p <= |s| && s[p - 1] == '\n')
  }

  /** `m` has the shape of a match in `s`: it starts a line, white space runs
      up to `open`, a maximal non-empty run of digits follows whose decimal
      value is `m.id`, and it ends with the first `close` after the digits. */
  predicate IsItem(s: string, m: ItemMatch, open: string, close: string) {
    && LineStart(s, m.start)
    && m.start + |open| <= m.idStart < m.idEnd
    && m.idEnd + |close| <= m.end <= |s|
    && (forall k :: m.start <= k < m.idStart - |open| ==> IsSpace(s[k]))
    && At(s, m.idStart - |open|, open)
    && AllDigits(s[m.idStart..m.idEnd])
    && (m.idEnd < |s| ==> !IsDigit(s[m.idEnd]))
    && m.id == Decimal(s[m.idStart..m.idEnd])
    && At(s, m.end - |close|, close)
    && (forall k :: m.idEnd <= k < m.end - |close| ==> !At(s, k, close))
  }

  /** The match of `^\s*` + `open` + `(\d+).*?` + `close` that starts exactly
      at `p`, if there is one. The greedy `\s*` and `\d+` take maximal runs:
      when `open` does not begin with white space and `close` does not begin
      with a digit, a shorter run never matches where the maximal one fails.
      The lazy `.*?` ends at the first `close`. */
  function ItemAt(s: string, p: nat, open: string, close: string): (r: Option<ItemMatch>)
    requires p <= |s|
    ensures r.Some? ==> r.value.start == p < r.value.end <= |s|
  {
    if !LineStart(s, p) then None else ItemFrom(s, p, SpaceEnd(s, p), open, close)
  }

  /** The rest of the match at `p` once `\s*` has stopped at `q`: `open`,
      the maximal run of digits, and the first `close` after them. */
  function ItemFrom(s: string, p: nat, q: nat, open: string, close: string): (r: Option<ItemMatch>)
    requires p <= q <= |s|
    ensures r.Some? ==> r.value.start == p < r.value.end <= |s|
  {
    if !At(s, q, open) then None
    else
      var ds := q + |open|;
      var de := DigitEnd(s, ds);
      if de == ds then None
      else
        match IndexOf(s, close, de)
        case None => None
        case Some(c) => Some(ItemMatch(p, ds, de, c + |close|, Decimal(s[ds..de])))
  }

  /** What a match found by `ItemAt` looks like. */
  lemma ItemShape(s: string, p: nat, open: string, close: string)
    requires p <= |s| && ItemAt(s, p, open, close).Some?
    ensures IsItem(s, ItemAt(s, p, open, close).value, open, close)
  {
  }

  /** Conversely, a match of the item pattern is found where it starts: the
      prefix does not begin with white space, so the greedy `\s*` stops
      right before it. */
  lemma ItemFound(s: string, m: ItemMatch)
    requires IsItem(s, m, ItemOpen, ItemClose)
    ensures ItemAt(s, m.start, ItemOpen, ItemClose) == Some(m)
  {
    PrefixStartsWithLessThan(s, m.idStart - |ItemOpen|);
    FoundWhereSpaceEnds(s, m, ItemOpen, ItemClose);
  }

  /** `ItemAt` finds an item-shaped match whose `open` does not start with
      white space. */
  lemma FoundWhereSpaceEnds(s: string, m: ItemMatch, open: string, close: string)
    requires IsItem(s, m, open, close)
    requires !IsSpace(s[m.idStart - |open|])
    ensures ItemAt(s, m.start, open, close) == Some(m)
  {
    SpaceEndOfRun(s, m.start, m.idStart - |open|);
    ItemFromParts(s, m, open, close);
  }

  /** `ItemFrom` finds an item-shaped match from where its `open` stands. */
  lemma ItemFromParts(s: string, m: ItemMatch, open: string, close: string)
    requires IsItem(s, m, open, close)
    ensures ItemFrom(s, m.start, m.idStart - |open|, open, close) == Some(m)
  {
    DigitEndOfRun(s, m.idStart, m.idEnd);
    IndexOfAt(s, close, m.idEnd, m.end - |close|);
  }

  /** The item prefix begins with `<`, which is not white space. */
  lemma PrefixStartsWithLessThan(s: string, q: nat)
    requires At(s, q, ItemOpen)
    ensures q < |s| && !IsSpace(s[q])
  {
    assert s[q] == s[q..q + |ItemOpen|][0];
  }

  /** The item pattern tried at every position of `s`. */
  function ItemTries(s: string, open: string, close: string): nat -> Option<ItemMatch> {
    (p: nat) => if p <= |s| then ItemAt(s, p, open, close) else None
  }

  /** The leftmost match starting at or after `from` (one step of `finditer`). */
  function NextItem(s: string, from: nat, open: string, close: string): (r: Option<ItemMatch>)
    requires from <= |s|
    ensures r.Some? ==> from <= r.value.start < r.value.end <= |s|
  {
    match Leftmost(ItemTries(s, open, close), from, |s|)
    case None => None
    case Some((_, m)) => Some(m)
  }

  /** `NextItem` finds the match that starts first: none starts earlier, and
      when it finds nothing, no match starts anywhere from `from` on. */
  lemma NextItemIsLeftmost(s: string, from: nat, open: string, close: string)
    requires from <= |s|
    ensures NextItem(s, from, open, close).Some? ==>
      ItemAt(s, NextItem(s, from, open, close).value.start, open, close) == NextItem(s, from, open, close)
    ensures NextItem(s, from, open, close).Some? ==>
      forall p :: from <= p < NextItem(s, from, open, close).value.start ==> ItemAt(s, p, open, close).None?
    ensures NextItem(s, from, open, close).None? ==>
      forall p :: from <= p <= |s| ==> ItemAt(s, p, open, close).None?
  {
    var f := ItemTries(s, open, close);
    LeftmostIsFirst(f, from, |s|);
    forall p | from <= p <= |s| ensures f(p) == ItemAt(s, p, open, close) {
    }
  }

  /** Every match `finditer` yields from `from` on: each search resumes where
      the previous match ended. */
  function Matches(s: string, from: nat, open: string, close: string): (ms: seq<ItemMatch>)
    requires from <= |s|
    decreases |s| - from
    ensures forall i :: 0 <= i < |ms| ==> from <= ms[i].start < ms[i].end <= |s|
  {
    match NextItem(s, from, open, close)
    case None => []
    case Some(m) => [m] + Matches(s, m.end, open, close)
  }

  /** The article a match describes: the number read from its digits, the
      whole matched text, and no date yet. */
  function ArticleOf(s: string, m: ItemMatch): Article
    requires m.start <= m.end <= |s|
  {
    Article(m.id, s[m.start..m.end], 0)
  }

  /** The articles of the matches from `from` on, in the order `finditer` yields them. */
  function Items(s: string, from: nat, open: string, close: string): (r: seq<Article>)
    requires from <= |s|
    decreases |s| - from
    ensures forall i :: 0 <= i < |r| ==> r[i].date == 0 && |r[i].raw| > 0
  {
    match NextItem(s, from, open, close)
    case None => []
    case Some(m) => [ArticleOf(s, m)] + Items(s, m.end, open, close)
  }

  /** There is one article per match, made from that match. */
  lemma {:induction false} ItemsFollowMatches(s: string, from: nat, open: string, close: string)
    requires from <= |s|
    decreases |s| - from
    ensures |Items(s, from, open, close)| == |Matches(s, from, open, close)|
    ensures forall i :: 0 <= i < |Items(s, from, open, close)| ==>
      Items(s, from, open, close)[i] == ArticleOf(s, Matches(s, from, open, close)[i])
  {
    match NextItem(s, from, open, close)
    case None =>
    case Some(m) =>
      ItemsFollowMatches(s, m.end, open, close);
      PrependFollows(s, m, Items(s, m.end, open, close), Matches(s, m.end, open, close));
  }

  /** Putting a match and its article in front keeps the lists in step. */
  lemma PrependFollows(s: string, m: ItemMatch, items: seq<Article>, ms: seq<ItemMatch>)
    requires m.start <= m.end <= |s| && forall i :: 0 <= i < |ms| ==> ms[i].start <= ms[i].end <= |s|
    requires |items| == |ms| && forall i :: 0 <= i < |items| ==> items[i] == ArticleOf(s, ms[i])
    ensures forall i :: 0 <= i < |items| + 1 ==> ([ArticleOf(s, m)] + items)[i] == ArticleOf(s, ([m] + ms)[i])
  {
    forall i | 0 < i < |items| + 1 ensures ([ArticleOf(s, m)] + items)[i] == ArticleOf(s, ([m] + ms)[i]) {
      assert ([ArticleOf(s, m)] + items)[i] == items[i - 1];
    }
  }

  /** `load`: one article per match of the item pattern, in document order. */
  method Load(data: string) returns (articles: seq<Article>)
    ensures articles == Items(data, 0, ItemOpen, ItemClose)
    ensures |articles| == |Matches(data, 0, ItemOpen, ItemClose)|
    ensures forall i :: 0 <= i < |articles| ==> articles[i] == ArticleOf(data, Matches(data, 0, ItemOpen, ItemClose)[i])
  {
    articles := [];
    var pos := 0;
    while true
      invariant pos <= |data|
      invariant articles + Items(data, pos, ItemOpen, ItemClose) == Items(data, 0, ItemOpen, ItemClose)
      decreases |data| - pos
    {
      var next := NextItem(data, pos, ItemOpen, ItemClose);
      if next.None? {
        break;
      }
      var m := next.value;
      articles := articles + [ArticleOf(data, m)];
      pos := m.end;
    }
    ItemsFollowMatches(data, 0, ItemOpen, ItemClose);
  }

  /** Each match ends before the next one starts. */
  predicate InDocumentOrder(ms: seq<ItemMatch>) {
    forall i, j :: 0 <= i < j < |ms| ==> ms[i].end <= ms[j].start
  }

  /** A match that ends before every later one starts keeps the order. */
  lemma PrependInOrder(m: ItemMatch, rest: seq<ItemMatch>)
    requires InDocumentOrder(rest)
    requires forall j :: 0 <= j < |rest| ==> m.end <= rest[j].start
    ensures InDocumentOrder([m] + rest)
  {
    var ms := [m] + rest;
    forall i, j | 0 <= i < j < |ms| ensures ms[i].end <= ms[j].start {
      assert ms[j] == rest[j - 1];
      if 0 < i {
        assert ms[i] == rest[i - 1];
      }
    }
  }

  /** The matches come in document order and do not overlap. */
  lemma {:induction false} MatchesInDocumentOrder(s: string, from: nat, open: string, close: string)
    requires from <= |s|
    decreases |s| - from
    ensures InDocumentOrder(Matches(s, from, open, close))
  {
    match NextItem(s, from, open, close)
    case None =>
    case Some(m) =>
      MatchesInDocumentOrder(s, m.end, open, close);
      PrependInOrder(m, Matches(s, m.end, open, close));
  }
}

=== FILE: probe.dfy ===
/** Resolving the date of a paid article from a probe of its page
    (`get_avail_date`). The request itself is an input: the response is
    handed in. */
module Probe {
  import opened Wrappers
  import opened Text
  import opened Calendar
  import opened Articles

  const Notice := "available on "

  datatype NoticeDate = NoticeDate(year: nat, month: nat, day: nat)

  /** The month alternative of the notice pattern at `i`, tried in calendar order. */
  function MonthFrom(s: string, i: nat, k: nat): (r: Option<nat>)
    decreases 12 - k
    ensures r.Some? ==> k <= r.value < 12 && At(s, i, MonthNames[r.value])
  {
    if k >= 12 then None
    else if At(s, i, MonthNames[k]) then Some(k)
    else MonthFrom(s, i, k + 1)
  }

  /** The day group `[1-9]|[12][0-9]|3[01]` at `i` when `", "` follows it:
      the day and the index where the group ends. */
  function DayAt(s: string, i: nat): (r: Option<(nat, nat)>)
    ensures r.Some? ==> 1 <= r.value.0 <= 31 && At(s, r.value.1, ", ")
  {
    if i < |s| && '1' <= s[i] <= '9' && At(s, i + 1, ", ") then
      Some((DigitValue(s[i]), i + 1))
    else if i + 1 < |s| && (s[i] == '1' || s[i] == '2') && IsDigit(s[i + 1]) && At(s, i + 2, ", ") then
      Some((10 * DigitValue(s[i]) + DigitValue(s[i + 1]), i + 2))
    else if i + 1 < |s| && s[i] == '3' && (s[i + 1] == '0' || s[i + 1] == '1') && At(s, i + 2, ", ") then
      Some((30 + DigitValue(s[i + 1]), i + 2))
    else None
  }

  /** The rest of the notice pattern, `" " <Day> ", " <Year>`, at `i`: the
      day, and the year read from the whole digit run after the comma, which
      needs at least four digits. */
  function DayYearAt(s: string, i: nat): (r: Option<(nat, nat)>)
    ensures r.Some? ==> 1 <= r.value.0 <= 31
  {
    if !At(s, i, " ") then None
    else match DayAt(s, i + 1)
      case None => None
      case Some((day, dayEnd)) =>
        var yearStart := dayEnd + 2;
        var yearEnd := DigitEnd(s, yearStart);
        if yearEnd - yearStart < 4 then None
        else Some((day, Decimal(s[yearStart..yearEnd])))
  }

  /** The notice pattern `available on <Month> <Day>, <Year>` tried at `p`. */
  function NoticeAt(s: string, p: nat): (r: Option<NoticeDate>)
    ensures r.Some? ==> At(s, p, Notice) && 1 <= r.value.month <= 12 && 1 <= r.value.day <= 31
  {
    if !At(s, p, Notice) then None
    else match MonthFrom(s, p + |Notice|, 0)
      case None => None
      case Some(k) => NoticeAfterMonth(s, p + |Notice|, k)
  }

  /** The rest of the notice pattern once the month group has matched month
      name `k` at `q`; `month_idx` gives the month's number. */
  function NoticeAfterMonth(s: string, q: nat, k: nat): (r: Option<NoticeDate>)
    requires k < 12
    ensures r.Some? ==> r.value.month == k + 1 && 1 <= r.value.day <= 31
  {
    match DayYearAt(s, q + |MonthNames[k]|)
    case None => None
    case Some((day, year)) => Some(NoticeDate(year, MonthIndex()[MonthNames[k]], day))
  }

  /** `re.search` for the notice: the leftmost position where it matches. */
  function FindNotice(s: string, from: nat): (r: Option<NoticeDate>)
    decreases |s| - from
    ensures r.Some? ==> 1 <= r.value.month <= 12 && 1 <= r.value.day <= 31
  {
    if from + |Notice| > |s| then None
    else if NoticeAt(s, from).Some? then NoticeAt(s, from)
    else FindNotice(s, from + 1)
  }

  /** The search finds nothing exactly when no position from `from` on holds
      a notice. */
  lemma {:induction false} FindNoticeNone(s: string, from: nat)
    decreases |s| - from
    ensures FindNotice(s, from).None? <==> forall p :: from <= p ==> NoticeAt(s, p).None?
  {
    if from + |Notice| > |s| {
      forall p | from <= p
        ensures NoticeAt(s, p).None?
      {
        assert !At(s, p, Notice);
      }
    } else if NoticeAt(s, from).None? {
      FindNoticeNone(s, from + 1);
      if FindNotice(s, from).None? {
        forall p | from <= p
          ensures NoticeAt(s, p).None?
        {
          if p > from {
            assert from + 1 <= p;
          }
        }
      }
    }
  }

  /** `get_avail_date`: a 200 means the article is free and keeps the date
      it claims; otherwise the first notice in the page gives midnight UTC of
      the named day. No notice, or a day `datetime` rejects, stops the run. */
  function AvailDate(rsp: Response, claimed: int): (r: Result<int, Fault>)
    ensures rsp.status == 200 ==> r == Ok(claimed)
    ensures rsp.status != 200 && r.Ok? ==> r.value % SecondsPerDay == 0
    ensures rsp.status != 200 ==> (r == Err(NoAvailNotice) <==> FindNotice(rsp.body, 0).None?)
    ensures rsp.status != 200 && FindNotice(rsp.body, 0).Some? ==> var n := FindNotice(rsp.body, 0).value;
      && (r == Err(BadCalendarDate) <==> !ValidDate(n.year, n.month, n.day))
      && (r.Ok? ==> r.value == MidnightUtc(n.year, n.month, n.day))
  {
    if rsp.status == 200 then Ok(claimed)
    else match FindNotice(rsp.body, 0)
      case None => Err(NoAvailNotice)
      case Some(n) =>
        if ValidDate(n.year, n.month, n.day) then Ok(MidnightUtc(n.year, n.month, n.day))
        else Err(BadCalendarDate)
  }

  /** The day as LWN writes it: no leading zero. */
  function DayText(d: nat): string
    requires 1 <= d <= 31
  {
    if d < 10 then Digits(d, 1) else Digits(d, 2)
  }

  function YearText(y: nat): string
    requires 1000 <= y <= 9999
  {
    Digits(y, 4)
  }

  /** The page text announcing that an article becomes free on a given day. */
  function NoticeText(y: nat, m: nat, d: nat): string
    requires 1000 <= y <= 9999 && 1 <= m <= 12 && 1 <= d <= 31
  {
    Notice + MonthNames[m - 1] + " " + DayYearText(y, d)
  }

  function DayYearText(y: nat, d: nat): string
    requires 1000 <= y <= 9999 && 1 <= d <= 31
  {
    DayText(d) + ", " + YearText(y)
  }

  lemma YearDigits(y: nat)
    requires 1000 <= y <= 9999
    ensures AllDigits(YearText(y)) && |YearText(y)| == 4 && Decimal(YearText(y)) == y
  {
    assert Pow10(4) == 10000;
    DecimalOfDigits(y, 4);
  }

  /** The day written as LWN writes it, followed by `", "`, is read back by the day group. */
  lemma DayDigits(s: string, i: nat, d: nat)
    requires 1 <= d <= 31
    requires At(s, i, DayText(d)) && At(s, i + |DayText(d)|, ", ")
    ensures DayAt(s, i) == Some((d, i + |DayText(d)|))
  {
    var t := DayText(d);
    assert s[i] == s[i..i + |t|][0] == t[0];
    if d < 10 {
      assert t == [DigitChar(d)];
    } else {
      assert Digits(d / 10, 1) == [DigitChar(d / 10 % 10)];
      assert t == [DigitChar(d / 10 % 10), DigitChar(d % 10)];
      assert d / 10 % 10 == d / 10;
      assert s[i + 1] == s[i..i + |t|][1] == t[1];
      assert s[i + 2] == s[i + 2..i + 4][0] == ',';
      assert !At(s, i + 1, ", ");
    }
  }

  /** Where a month name stands, the month group matches that month. */
  lemma {:induction false} MonthFound(s: string, i: nat, k: nat, from: nat)
    requires from <= k < 12 && At(s, i, MonthNames[k])
    ensures MonthFrom(s, i, from) == Some(k)
    decreases k - from
  {
    if from < k {
      if At(s, i, MonthNames[from]) { MonthNamesDiffer(s, i, from, k); }
      MonthFound(s, i, k, from + 1);
    }
  }

  lemma DayYearAtParts(s: string, i: nat, day: nat, dayEnd: nat, ye: nat)
    requires At(s, i, " ") && DayAt(s, i + 1) == Some((day, dayEnd))
    requires DigitEnd(s, dayEnd + 2) == ye && ye >= dayEnd + 6
    ensures DayYearAt(s, i) == Some((day, Decimal(s[dayEnd + 2..ye])))
  {
  }

  lemma NoticeAtParts(s: string, p: nat, k: nat, n: NoticeDate)
    requires k < 12 && At(s, p, Notice) && MonthFrom(s, p + |Notice|, 0) == Some(k)
    requires NoticeAfterMonth(s, p + |Notice|, k) == Some(n)
    ensures NoticeAt(s, p) == Some(n)
  {
  }

  lemma AfterMonthParts(s: string, q: nat, m: nat, day: nat, year: nat)
    requires 1 <= m <= 12 && DayYearAt(s, q + |MonthNames[m - 1]|) == Some((day, year))
    ensures NoticeAfterMonth(s, q, m - 1) == Some(NoticeDate(year, m, day))
  {
  }

  lemma AfterMonthRead(s: string, q: nat, k: nat, n: NoticeDate)
    requires k < 12 && NoticeAfterMonth(s, q, k) == Some(n)
    ensures DayYearAt(s, q + |MonthNames[k]|) == Some((n.day, n.year))
  {
  }

  /** An occurrence of `u + v` is one of `u` followed by one of `v`. */
  lemma AtSplit(s: string, i: nat, u: string, v: string)
    requires At(s, i, u + v)
    ensures At(s, i, u) && At(s, i + |u|, v)
  {
    assert s[i..i + |u|] == s[i..i + |u| + |v|][..|u|];
    assert s[i + |u|..i + |u| + |v|] == s[i..i + |u| + |v|][|u|..];
  }

  /** `AtSplit` with the position of `v` named by the caller. */
  lemma AtSplitAt(s: string, i: nat, j: nat, u: string, v: string)
    requires At(s, i, u + v) && j == i + |u|
    ensures At(s, i, u) && At(s, j, v)
  {
    AtSplit(s, i, u, v);
  }

  /** The middle part of a concatenation occurs where it was put, and the
      last part follows it. */
  lemma AtMiddle(a: string, b: string, c: string)
    ensures At(a + b + c, |a|, b) && (a + b + c)[|a| + |b|..] == c
  {
    var s := a + b + c;
    assert s[|a|..|a| + |b|] == b;
  }

  /** A notice with none before it from `from` on is what `re.search` finds. */
  lemma {:induction false} FindNoticeAt(s: string, from: nat, p: nat, n: NoticeDate)
    requires from <= p && NoticeAt(s, p) == Some(n)
    requires forall q :: from <= q < p ==> NoticeAt(s, q).None?
    decreases p - from
    ensures FindNotice(s, from) == Some(n)
  {
    if from < p {
      FindNoticeAt(s, from + 1, p, n);
    }
  }

  /** The pieces of the notice text for a day stand at `p` in `s`, and no
      digit follows the year. */
  predicate NoticeLaidOut(s: string, p: nat, y: nat, m: nat, d: nat)
    requires 1000 <= y <= 9999 && 1 <= m <= 12 && 1 <= d <= 31
  {
    && At(s, p, Notice) && At(s, p + |Notice|, MonthNames[m - 1])
    && At(s, p + |Notice| + |MonthNames[m - 1]|, " ")
    && DayYearLaidOut(s, p + |Notice| + |MonthNames[m - 1]| + 1, y, d)
  }

  /** The day, `", "` and the year stand at `i`, and no digit follows the year. */
  predicate DayYearLaidOut(s: string, i: nat, y: nat, d: nat)
    requires 1000 <= y <= 9999 && 1 <= d <= 31
  {
    var ys := i + |DayText(d)| + 2;
    && At(s, i, DayText(d)) && At(s, i + |DayText(d)|, ", ") && At(s, ys, YearText(y))
    && (ys + 4 < |s| ==> !IsDigit(s[ys + 4]))
  }

  /** The notice pattern recognises the notice text for a day where a page
      embeds it, when no digit follows the year. */
  lemma NoticeEmbedded(pre: string, y: nat, m: nat, d: nat, post: string)
    requires 1000 <= y <= 9999 && 1 <= m <= 12 && 1 <= d <= 31
    requires post == [] || !IsDigit(post[0])
    ensures NoticeAt(pre + NoticeText(y, m, d) + post, |pre|) == Some(NoticeDate(y, m, d))
  {
    var s := pre + NoticeText(y, m, d) + post;
    NoticePlaced(s, pre, y, m, d, post);
    NoticeTextLaidOut(s, |pre|, y, m, d);
    NoticeOfLaidOut(s, |pre|, y, m, d);
  }

  /** A page that embeds the notice text holds it where it was put, and
      what follows it there starts with no digit. */
  lemma NoticePlaced(s: string, pre: string, y: nat, m: nat, d: nat, post: string)
    requires 1000 <= y <= 9999 && 1 <= m <= 12 && 1 <= d <= 31
    requires s == pre + NoticeText(y, m, d) + post
    requires post == [] || !IsDigit(post[0])
    ensures At(s, |pre|, NoticeText(y, m, d))
    ensures |pre| + |NoticeText(y, m, d)| < |s| ==> !IsDigit(s[|pre| + |NoticeText(y, m, d)|])
  {
    var e := |pre| + |NoticeText(y, m, d)|;
    AtMiddle(pre, NoticeText(y, m, d), post);
    if e < |s| {
      assert s[e] == s[e..][0] == post[0];
    }
  }

  /** Where the notice text stands, its pieces stand one after the other. */
  lemma NoticeTextLaidOut(s: string, p: nat, y: nat, m: nat, d: nat)
    requires 1000 <= y <= 9999 && 1 <= m <= 12 && 1 <= d <= 31
    requires At(s, p, NoticeText(y, m, d))
    requires p + |NoticeText(y, m, d)| < |s| ==> !IsDigit(s[p + |NoticeText(y, m, d)|])
    ensures NoticeLaidOut(s, p, y, m, d)
  {
    var name := MonthNames[m - 1];
    var i := p + |Notice| + |name| + 1;
    assert NoticeText(y, m, d) == Notice + name + " " + DayYearText(y, d);
    assert i + |DayYearText(y, d)| == p + |NoticeText(y, m, d)|;
    AtSplitAt(s, p, i, Notice + name + " ", DayYearText(y, d));
    AtSplitAt(s, p, p + |Notice| + |name|, Notice + name, " ");
    AtSplitAt(s, p, p + |Notice|, Notice, name);
    DayYearTextLaidOut(s, i, y, d);
  }

  /** Where the day, `", "` and the year stand as one text, they stand one
      after the other. */
  lemma DayYearTextLaidOut(s: string, i: nat, y: nat, d: nat)
    requires 1000 <= y <= 9999 && 1 <= d <= 31
    requires At(s, i, DayYearText(y, d))
    requires i + |DayYearText(y, d)| < |s| ==> !IsDigit(s[i + |DayYearText(y, d)|])
    ensures DayYearLaidOut(s, i, y, d)
  {
    AtSplitAt(s, i, i + |DayText(d)| + 2, DayText(d) + ", ", YearText(y));
    AtSplitAt(s, i, i + |DayText(d)|, DayText(d), ", ");
  }

  /** The notice pattern matches the pieces of a notice laid out at `p`. */
  lemma NoticeOfLaidOut(s: string, p: nat, y: nat, m: nat, d: nat)
    requires 1000 <= y <= 9999 && 1 <= m <= 12 && 1 <= d <= 31
    requires NoticeLaidOut(s, p, y, m, d)
    ensures NoticeAt(s, p) == Some(NoticeDate(y, m, d))
  {
    var q := p + |Notice|;
    DayYearRead(s, q + |MonthNames[m - 1]|, y, d);
    MonthFound(s, q, m - 1, 0);
    AfterMonthParts(s, q, m, d, y);
    NoticeAtParts(s, p, m - 1, NoticeDate(y, m, d));
  }

  /** The rest of the notice pattern reads the day and the year laid out
      after the space at `i`. */
  lemma DayYearRead(s: string, i: nat, y: nat, d: nat)
    requires 1000 <= y <= 9999 && 1 <= d <= 31
    requires At(s, i, " ") && DayYearLaidOut(s, i + 1, y, d)
    ensures DayYearAt(s, i) == Some((d, y))
  {
    var dayEnd := i + 1 + |DayText(d)|;
    DayDigits(s, i + 1, d);
    YearEnds(s, dayEnd + 2, y);
    DayYearAtParts(s, i, d, dayEnd, dayEnd + 4 + 2);
  }

  /** The four digits of the year, with no digit after them, form a maximal
      digit run. */
  lemma YearEnds(s: string, ys: nat, y: nat)
    requires 1000 <= y <= 9999
    requires At(s, ys, YearText(y)) && (ys + 4 < |s| ==> !IsDigit(s[ys + 4]))
    ensures DigitEnd(s, ys) == ys + 4 && Decimal(s[ys..ys + 4]) == y
  {
    YearDigits(y);
    DigitEndOfRun(s, ys, ys + 4);
  }

  /** What the day group reads is the day written without a leading zero,
      and the group ends right after it. */
  lemma DayAtShape(s: string, i: nat)
    requires DayAt(s, i).Some?
    ensures var (d, e) := DayAt(s, i).value;
      1 <= d <= 31 && e == i + |DayText(d)| && At(s, i, DayText(d))
  {
    var (d, e) := DayAt(s, i).value;
    if '1' <= s[i] <= '9' && At(s, i + 1, ", ") {
      assert DayText(d) == Digits(0, 0) + [DigitChar(d)];
      assert DigitChar(d) == s[i];
      assert s[i..i + 1] == [s[i]];
    } else {
      var a, b := DigitValue(s[i]), DigitValue(s[i + 1]);
      assert d == 10 * a + b && d / 10 == a && d % 10 == b;
      assert Digits(a, 1) == Digits(0, 0) + [DigitChar(a)];
      assert DayText(d) == [DigitChar(a), DigitChar(b)];
      assert DigitChar(a) == s[i] && DigitChar(b) == s[i + 1];
      assert s[i..i + 2] == [s[i], s[i + 1]];
    }
  }

  /** The rest of the notice pattern as it stands at `i`: a space, the day
      without a leading zero, `", "`, then a maximal run of at least four
      digits whose decimal value is `y`. */
  predicate DayYearShape(s: string, i: nat, d: nat, y: nat)
    requires 1 <= d <= 31
  {
    var ys := i + 1 + |DayText(d)| + 2;
    && At(s, i, " ") && At(s, i + 1, DayText(d)) && At(s, i + 1 + |DayText(d)|, ", ")
    && ys + 4 <= DigitEnd(s, ys) && Decimal(s[ys..DigitEnd(s, ys)]) == y
  }

  /** The notice pattern `available on <Month> <Day>, <Year>` as it stands at
      `p` for the date `n`. */
  predicate NoticeShape(s: string, p: nat, n: NoticeDate) {
    && 1 <= n.month <= 12 && 1 <= n.day <= 31
    && At(s, p, Notice) && At(s, p + |Notice|, MonthNames[n.month - 1])
    && DayYearShape(s, p + |Notice| + |MonthNames[n.month - 1]|, n.day, n.year)
  }

  /** The rest of the notice pattern reads a day and a year exactly where
      they stand with its shape. */
  lemma DayYearAtIsShape(s: string, i: nat, d: nat, y: nat)
    ensures DayYearAt(s, i) == Some((d, y)) <==> 1 <= d <= 31 && DayYearShape(s, i, d, y)
  {
    if DayYearAt(s, i) == Some((d, y)) {
      DayYearAtShape(s, i, d, y);
    }
    if 1 <= d <= 31 && DayYearShape(s, i, d, y) {
      ShapeIsDayYear(s, i, d, y);
    }
  }

  /** What the rest of the notice pattern reads has that shape. */
  lemma DayYearAtShape(s: string, i: nat, d: nat, y: nat)
    requires DayYearAt(s, i) == Some((d, y))
    ensures 1 <= d <= 31 && DayYearShape(s, i, d, y)
  {
    DayAtShape(s, i + 1);
  }

  /** Where the rest of the pattern's shape stands, it reads that day and year. */
  lemma ShapeIsDayYear(s: string, i: nat, d: nat, y: nat)
    requires 1 <= d <= 31 && DayYearShape(s, i, d, y)
    ensures DayYearAt(s, i) == Some((d, y))
  {
    var dayEnd := i + 1 + |DayText(d)|;
    DayDigits(s, i + 1, d);
    DayYearAtParts(s, i, d, dayEnd, DigitEnd(s, dayEnd + 2));
  }

  /** A notice is read at `p` exactly when `available on ` and a month name
      stand there and the rest of the pattern reads the day and the year
      after the name. */
  lemma NoticeAtIsMonthThenRest(s: string, p: nat, n: NoticeDate)
    ensures NoticeAt(s, p) == Some(n) <==> MonthThenRest(s, p, n)
  {
    if NoticeAt(s, p) == Some(n) {
      NoticeAtMonthThenRest(s, p, n);
    }
    if MonthThenRest(s, p, n) {
      MonthThenRestNoticeAt(s, p, n);
    }
  }

  /** `available on `, the month name of `n`, and the rest of the pattern
      reading the day and the year of `n`, at `p`. */
  predicate MonthThenRest(s: string, p: nat, n: NoticeDate) {
    && 1 <= n.month <= 12 && At(s, p, Notice) && At(s, p + |Notice|, MonthNames[n.month - 1])
    && DayYearAt(s, p + |Notice| + |MonthNames[n.month - 1]|) == Some((n.day, n.year))
  }

  lemma NoticeAtMonthThenRest(s: string, p: nat, n: NoticeDate)
    requires NoticeAt(s, p) == Some(n)
    ensures MonthThenRest(s, p, n)
  {
    NoticeMonth(s, p, n);
    AfterMonthRead(s, p + |Notice|, n.month - 1, n);
  }

  lemma MonthThenRestNoticeAt(s: string, p: nat, n: NoticeDate)
    requires MonthThenRest(s, p, n)
    ensures NoticeAt(s, p) == Some(n)
  {
    MonthFound(s, p + |Notice|, n.month - 1, 0);
    AfterMonthParts(s, p + |Notice|, n.month, n.day, n.year);
    NoticeAtParts(s, p, n.month - 1, n);
  }

  /** The month name a notice read at `p` starts with. */
  lemma NoticeMonth(s: string, p: nat, n: NoticeDate)
    requires NoticeAt(s, p) == Some(n)
    ensures 1 <= n.month <= 12 && At(s, p, Notice) && At(s, p + |Notice|, MonthNames[n.month - 1])
    ensures NoticeAfterMonth(s, p + |Notice|, n.month - 1) == Some(n)
  {
    var k := MonthFrom(s, p + |Notice|, 0).value;
    assert n.month - 1 == k;
  }

  /** The notice scanner reads exactly the texts of the pattern's shape. */
  lemma NoticeAtIsShape(s: string, p: nat, n: NoticeDate)
    ensures NoticeAt(s, p) == Some(n) <==> NoticeShape(s, p, n)
  {
    if NoticeAt(s, p) == Some(n) {
      NoticeAtShape(s, p, n);
    }
    if NoticeShape(s, p, n) {
      ShapeIsNotice(s, p, n);
    }
  }

  /** A notice read at `p` stands there with the shape of the pattern. */
  lemma NoticeAtShape(s: string, p: nat, n: NoticeDate)
    requires NoticeAt(s, p) == Some(n)
    ensures NoticeShape(s, p, n)
  {
    NoticeAtMonthThenRest(s, p, n);
    MonthThenRestShape(s, p, n);
  }

  /** Where the pattern's shape stands, the notice is read with its date. */
  lemma ShapeIsNotice(s: string, p: nat, n: NoticeDate)
    requires NoticeShape(s, p, n)
    ensures NoticeAt(s, p) == Some(n)
  {
    ShapeMonthThenRest(s, p, n);
    MonthThenRestNoticeAt(s, p, n);
  }

  lemma MonthThenRestShape(s: string, p: nat, n: NoticeDate)
    requires MonthThenRest(s, p, n)
    ensures NoticeShape(s, p, n)
  {
    DayYearAtShape(s, p + |Notice| + |MonthNames[n.month - 1]|, n.day, n.year);
  }

  lemma ShapeMonthThenRest(s: string, p: nat, n: NoticeDate)
    requires NoticeShape(s, p, n)
    ensures MonthThenRest(s, p, n)
  {
    var i := p + |Notice| + |MonthNames[n.month - 1]|;
    assert DayYearShape(s, i, n.day, n.year);
    ShapeIsDayYear(s, i, n.day, n.year);
  }

  /** A page embedding the notice for a day, with no notice starting earlier
      and no digit right after the year, resolves to midnight UTC of that
      day, whatever the article claimed. */
  lemma NoticeRoundTrip(pre: string, y: nat, m: nat, d: nat, post: string, status: int, claimed: int)
    requires ValidDate(y, m, d) && 1000 <= y
    requires status != 200
    requires forall q :: 0 <= q < |pre| ==> NoticeAt(pre + NoticeText(y, m, d) + post, q).None?
    requires post == [] || !IsDigit(post[0])
    ensures AvailDate(Response(status, pre + NoticeText(y, m, d) + post), claimed) == Ok(MidnightUtc(y, m, d))
  {
    NoticeEmbedded(pre, y, m, d, post);
    FindNoticeAt(pre + NoticeText(y, m, d) + post, 0, |pre|, NoticeDate(y, m, d));
  }

  lemma March5th2025Midnight()
    ensures ValidDate(2025, 3, 5) && MidnightUtc(2025, 3, 5) == 1741132800
  {
    assert DaysBeforeMonth(2025, 3) == 59;
  }

  lemma Year2025Text()
    ensures YearText(2025) == "2025"
  {
    assert Digits(2, 1) == Digits(0, 0) + ['2'];
    assert Digits(20, 2) == Digits(2, 1) + ['0'];
    assert Digits(202, 3) == Digits(20, 2) + ['2'];
    assert Digits(2025, 4) == Digits(202, 3) + ['5'];
  }

  lemma March5th2025Text()
    ensures NoticeText(2025, 3, 5) == "available on March 5, 2025"
  {
    Year2025Text();
    assert DayText(5) == Digits(0, 0) + ['5'];
    assert MonthNames[2] == "March";
  }

  /** A page saying "available on March 5, 2025" resolves to 2025-03-05T00:00:00Z. */
  lemma March5th2025(status: int, claimed: int)
    requires status != 200
    ensures AvailDate(Response(status, "available on March 5, 2025"), claimed) == Ok(1741132800)
  {
    March5th2025Text();
    March5th2025Midnight();
    assert [] + NoticeText(2025, 3, 5) + [] == NoticeText(2025, 3, 5);
    NoticeRoundTrip([], 2025, 3, 5, [], status, claimed);
  }
}

=== FILE: reconcile.dfy ===
/** One run of the script: the stored articles and the fetched feed are
    dated, merged, sorted newest first and cut down to the new state, and
    the articles already free are the ones published. */
module Reconcile {
  import opened Wrappers
  import opened Articles
  import opened Feed
  import opened Dating
  import opened Selection
  import opened Sorting
  import opened Retention

  /** What a run writes: the new state and the articles of the published feed. */
  datatype Snapshot = Snapshot(local: seq<Article>, publish: seq<Article>)

  /** `id_set`: the article numbers of a list, gathered article by article. */
  function IdSet(s: seq<Article>): (r: set<nat>)
    ensures forall i :: 0 <= i < |s| ==> s[i].id in r
    ensures forall x :: x in r ==> exists i :: 0 <= i < |s| && s[i].id == x
    ensures |r| <= |s|
  {
    if s == [] then {}
    else
      var init := s[..|s| - 1];
      assert forall i :: 0 <= i < |init| ==> s[i] == init[i];
      IdSet(init) + {s[|s| - 1].id}
  }

  /** `date_dict`: article number to date; a later article overrides an
      earlier one with the same number. */
  function DateDict(s: seq<Article>): (r: map<nat, int>)
    ensures r.Keys == IdSet(s)
  {
    if s == [] then map[]
    else
      var init := s[..|s| - 1];
      DateDict(init)[s[|s| - 1].id := s[|s| - 1].date]
  }

  /** The stored date of a number is that of the last article carrying it. */
  lemma {:induction false} LastDateWins(s: seq<Article>, i: nat)
    requires i < |s| && forall j :: i < j < |s| ==> s[j].id != s[i].id
    ensures DateDict(s)[s[i].id] == s[i].date
  {
    if i < |s| - 1 {
      LastDateWins(s[..|s| - 1], i);
    }
  }

  /** The new state and the published articles at `now` from the dated items. */
  function Snap(items: seq<Article>, now: int): (r: Snapshot)
    ensures |r.local| <= |items|
    ensures Subseq(r.publish, r.local)
    ensures forall i :: 0 <= i < |r.publish| ==> r.publish[i].date < now
  {
    var kept := Kept(SortNewestFirst(items), now, FreeQuota);
    FilterIsSubseq(kept, Before(now));
    Snapshot(kept, Filter(kept, Before(now)))
  }

  /** A whole run: the stored articles are dated with nothing stored to
      consult, fetched articles whose number is stored are dropped, the rest
      are dated with the stored dates at hand, and the fetched ones go in
      front of the stored ones before sorting. */
  function Reconciled(stored: seq<Article>, fetched: seq<Article>, now: int,
                      probe: nat -> Response, text: IsoText): (r: Result<Snapshot, Fault>)
    ensures r.Ok? ==> |r.value.local| <= |stored| + |fetched|
    ensures r.Ok? ==> DatedAll(stored, map[], probe, text).Ok?
  {
    match DatedAll(stored, map[], probe, text)
    case Err(e) => Err(e)
    case Ok(local) =>
      match DatedAll(Filter(fetched, IdNotIn(IdSet(local))), DateDict(local), probe, text)
      case Err(e) => Err(e)
      case Ok(remote) => Ok(Snap(remote + local, now))
  }

  /** `get_date` on a fresh list holding `s`. */
  method DateList(s: seq<Article>, ref: map<nat, int>, probe: nat -> Response, text: IsoText)
    returns (r: Result<seq<Article>, Fault>)
    ensures r == DatedAll(s, ref, probe, text)
  {
    var articles := new Article[|s|](i requires 0 <= i < |s| => s[i]);
    assert articles[..] == s;
    var failure := GetDate(articles, ref, probe, text);
    if failure.Some? {
      return Err(failure.value);
    }
    return Ok(articles[..]);
  }

  /** The sort, the retention loop and the publish filter. */
  method Publish(items: seq<Article>, now: int) returns (snap: Snapshot)
    ensures snap == Snap(items, now)
  {
    var sorted := SortNewestFirst(items);
    var kept := Retain(sorted, now);
    snap := Snapshot(kept, Filter(kept, Before(now)));
  }

  /** The run itself: the stored list is dated, the fetched articles not
      stored yet are dated with the stored dates at hand, and the merged
      list goes through `Publish`. */
  method Reconcile(stored: seq<Article>, fetched: seq<Article>, now: int,
                   probe: nat -> Response, text: IsoText) returns (r: Result<Snapshot, Fault>)
    ensures r == Reconciled(stored, fetched, now, probe, text)
  {
    var local := DateList(stored, map[], probe, text);
    if local.Err? {
      return Err(local.error);
    }
    var idSet := IdSet(local.value);
    var dateDict := DateDict(local.value);
    var unseen := Filter(fetched, IdNotIn(idSet));
    var remote := DateList(unseen, dateDict, probe, text);
    if remote.Err? {
      return Err(remote.error);
    }
    var snap := Publish(remote.value + local.value, now);
    r := Ok(snap);
  }

  /** The script from the two texts it reads: the state file and the feed. */
  method Run(state: string, feed: string, now: int, probe: nat -> Response, text: IsoText)
    returns (r: Result<Snapshot, Fault>)
    ensures r == Reconciled(Items(state, 0, ItemOpen, ItemClose), Items(feed, 0, ItemOpen, ItemClose), now, probe, text)
  {
    var stored := Load(state);
    var fetched := Load(feed);
    r := Reconcile(stored, fetched, now, probe, text);
  }

  /** The new state is newest first and taken, in order, from the sorted items. */
  lemma SnapshotNewestFirst(items: seq<Article>, now: int)
    ensures NewestFirst(Snap(items, now).local)
    ensures Subseq(Snap(items, now).local, SortNewestFirst(items))
  {
    var sorted := SortNewestFirst(items);
    SortIsNewestFirst(items);
    KeptIsSubseq(sorted, now, FreeQuota);
    SubseqKeepsNewestFirst(Kept(sorted, now, FreeQuota), sorted);
  }

  /** Nothing enters the new state that was not among the items. */
  lemma SnapshotFromItems(items: seq<Article>, now: int, a: Article)
    requires a in Snap(items, now).local
    ensures a in items
  {
    var sorted := SortNewestFirst(items);
    KeptIsSubseq(sorted, now, FreeQuota);
    SubseqMembers(Kept(sorted, now, FreeQuota), sorted, a);
    SortIsPermutation(items);
    assert a in multiset(sorted);
  }

  /** An article that is not yet free at `now` is never dropped. */
  lemma SnapshotKeepsPaid(items: seq<Article>, now: int, a: Article)
    requires a in items && a.date > now
    ensures a in Snap(items, now).local
  {
    var sorted := SortNewestFirst(items);
    SortIsPermutation(items);
    assert a in multiset(sorted);
    FilterMembers(sorted, After(now), a);
    KeepsEveryPaidArticle(sorted, now, FreeQuota);
    FilterMembers(Kept(sorted, now, FreeQuota), After(now), a);
  }

  /** At most twenty free articles stay, and they are the newest free ones:
      the first twenty of them in the sorted list, or all when there are fewer. */
  lemma SnapshotKeepsNewestFree(items: seq<Article>, now: int)
    ensures |Filter(Snap(items, now).local, AtMost(now))| <= FreeQuota
    ensures Filter(Snap(items, now).local, AtMost(now)) ==
      Filter(SortNewestFirst(items), AtMost(now))[..Min(FreeQuota, |Filter(SortNewestFirst(items), AtMost(now))|)]
  {
    KeepsFirstFreeArticles(SortNewestFirst(items), now, FreeQuota);
  }

  /** The published articles are those of the new state dated strictly before
      `now`, in the same order; one dated exactly `now` is kept and counts as
      free, but is not published. */
  lemma SnapshotPublishesPast(items: seq<Article>, now: int, a: Article)
    ensures a in Snap(items, now).publish <==> a in Snap(items, now).local && a.date < now
    ensures Subseq(Snap(items, now).publish, Snap(items, now).local)
    ensures a in Snap(items, now).local && a.date == now ==>
      a !in Snap(items, now).publish && a in Filter(Snap(items, now).local, AtMost(now))
  {
    var local := Snap(items, now).local;
    FilterMembers(local, Before(now), a);
    FilterMembers(local, AtMost(now), a);
    FilterIsSubseq(local, Before(now));
  }

  /** Running the sort, the retention loop and the publish filter again on
      the state they produced, at the same `now`, gives the same state and
      publishes the same articles again. */
  lemma SnapshotIsStable(items: seq<Article>, now: int)
    ensures Snap(Snap(items, now).local, now) == Snap(items, now)
  {
    var local := Snap(items, now).local;
    SnapshotNewestFirst(items, now);
    SnapshotKeepsNewestFree(items, now);
    SortKeepsSorted(local);
    KeepsAllWithinQuota(local, now, FreeQuota);
  }

  /** Dating keeps every article number. */
  lemma DatedIds(s: seq<Article>, ref: map<nat, int>, probe: nat -> Response, text: IsoText)
    requires DatedAll(s, ref, probe, text).Ok?
    ensures IdSet(DatedAll(s, ref, probe, text).value) == IdSet(s)
  {
    var d := DatedAll(s, ref, probe, text).value;
    forall i | 0 <= i < |s| ensures d[i].id == s[i].id {
      assert Dater(ref, probe, text)(s[i]) == Ok(d[i]);
    }
  }

  /** The fetched articles that reach the second dating pass all have numbers
      outside the stored ones, so the stored dates handed to it are never
      read: it gives what it would give with nothing stored. */
  lemma StoredDatesNeverRead(local: seq<Article>, fetched: seq<Article>, probe: nat -> Response, text: IsoText)
    ensures DatedAll(Filter(fetched, IdNotIn(IdSet(local))), DateDict(local), probe, text) ==
      DatedAll(Filter(fetched, IdNotIn(IdSet(local))), map[], probe, text)
  {
    var unseen := Filter(fetched, IdNotIn(IdSet(local)));
    forall i | 0 <= i < |unseen|
      ensures Dater(DateDict(local), probe, text)(unseen[i]) == Dater(map[], probe, text)(unseen[i])
    {
      assert Holds(IdNotIn(IdSet(local)), unseen[i]);
      AbsentEntryIgnored(unseen[i], DateDict(local), probe, text);
    }
    MapAllAgree(unseen, Dater(DateDict(local), probe, text), Dater(map[], probe, text));
  }

  /** A stored article is never replaced by a fetched copy: every article of
      the new state whose number was stored is the stored article, dated. */
  lemma StoredCopyWins(stored: seq<Article>, fetched: seq<Article>, now: int,
                       probe: nat -> Response, text: IsoText, a: Article)
    requires Reconciled(stored, fetched, now, probe, text).Ok?
    requires a in Reconciled(stored, fetched, now, probe, text).value.local && a.id in IdSet(stored)
    ensures a in DatedAll(stored, map[], probe, text).value
  {
    var local := DatedAll(stored, map[], probe, text).value;
    DatedIds(stored, map[], probe, text);
    var unseen := Filter(fetched, IdNotIn(IdSet(local)));
    var remote := DatedAll(unseen, DateDict(local), probe, text).value;
    SnapshotFromItems(remote + local, now, a);
    forall i | 0 <= i < |remote| ensures remote[i].id !in IdSet(stored) {
      assert Dater(DateDict(local), probe, text)(unseen[i]) == Ok(remote[i]);
      assert Holds(IdNotIn(IdSet(local)), unseen[i]);
    }
  }

  /** Every article of the run, stored or fetched, that is not yet free at
      `now` is in the new state. */
  lemma RunKeepsPaid(stored: seq<Article>, fetched: seq<Article>, now: int,
                     probe: nat -> Response, text: IsoText,
                     local: seq<Article>, remote: seq<Article>, a: Article)
    requires DatedAll(stored, map[], probe, text) == Ok(local)
    requires DatedAll(Filter(fetched, IdNotIn(IdSet(local))), DateDict(local), probe, text) == Ok(remote)
    requires a in remote + local && a.date > now
    ensures Reconciled(stored, fetched, now, probe, text) == Ok(Snap(remote + local, now))
    ensures a in Reconciled(stored, fetched, now, probe, text).value.local
  {
    SnapshotKeepsPaid(remote + local, now, a);
  }
}

=== FILE: redating.dfy ===
/** What the next run reads back from a text `get_date` rewrote: the stored
    item of a paid article carries its resolved date, so dating it again
    gives the same article without the stored dates or the probe. */
module Redating {
  import opened Wrappers
  import opened Text
  import opened Articles
  import opened Dating

  /** `x[xs..xs + n]` and `y[ys..ys + n]` hold the same text, character by
      character. */
  predicate Window(x: string, xs: nat, y: string, ys: nat, n: nat) {
    xs + n <= |x| && ys + n <= |y| && forall i :: xs <= i < xs + n ==> x[i] == y[i - xs + ys]
  }

  lemma WindowOfSlices(x: string, xs: nat, y: string, ys: nat, n: nat)
    requires xs + n <= |x| && ys + n <= |y| && x[xs..xs + n] == y[ys..ys + n]
    ensures Window(x, xs, y, ys, n)
  {
    forall i | xs <= i < xs + n ensures x[i] == y[i - xs + ys] {
      assert x[i] == x[xs..xs + n][i - xs];
      assert y[i - xs + ys] == y[ys..ys + n][i - xs];
    }
  }

  lemma CharInWindow(x: string, xs: nat, y: string, ys: nat, n: nat, p: nat)
    requires Window(x, xs, y, ys, n) && xs <= p < xs + n
    ensures x[p] == y[p - xs + ys]
  {
  }

  lemma AtInWindow(x: string, xs: nat, y: string, ys: nat, n: nat, p: nat, pat: string)
    requires Window(x, xs, y, ys, n) && xs <= p && p + |pat| <= xs + n
    ensures At(x, p, pat) <==> At(y, p - xs + ys, pat)
  {
    var a, b := x[p..p + |pat|], y[p - xs + ys..p - xs + ys + |pat|];
    forall i | 0 <= i < |pat| ensures a[i] == b[i] {
      CharInWindow(x, xs, y, ys, n, p + i);
    }
    assert a == b;
  }

  /** The characters of an occurrence are the pattern's. */
  lemma AtChars(s: string, a: nat, pat: string)
    requires At(s, a, pat)
    ensures forall i :: a <= i < a + |pat| ==> s[i] == pat[i - a]
  {
    forall i | a <= i < a + |pat| ensures s[i] == pat[i - a] {
      assert s[i] == s[a..a + |pat|][i - a];
    }
  }

  /** One character of an occurrence. */
  lemma AtChar(s: string, a: nat, pat: string, i: nat)
    requires At(s, a, pat) && a <= i < a + |pat|
    ensures s[i] == pat[i - a]
  {
    assert s[i] == s[a..a + |pat|][i - a];
  }

  /** A pattern does not occur where one of its characters is missing. */
  lemma NotAtWhereCharDiffers(s: string, a: nat, pat: string, i: nat)
    requires a <= i < a + |pat| && i < |s| && s[i] != pat[i - a]
    ensures !At(s, a, pat)
  {
    if a + |pat| <= |s| {
      assert s[a..a + |pat|][i - a] == s[i];
    }
  }

  lemma FindInWindow(x: string, xs: nat, y: string, ys: nat, n: nat, c: char, from: nat)
    requires Window(x, xs, y, ys, n) && xs <= from <= xs + n
    requires Find(y, c, from - xs + ys) < ys + n
    ensures Find(x, c, from) == Find(y, c, from - xs + ys) - ys + xs
  {
    var j := Find(y, c, from - xs + ys);
    FindSkips(y, c, from - xs + ys);
    CharInWindow(x, xs, y, ys, n, j - ys + xs);
    forall i | from <= i < j - ys + xs ensures x[i] != c {
      CharInWindow(x, xs, y, ys, n, i);
    }
    FindAt(x, c, from, j - ys + xs);
  }

  /** An element with none before it from `from` on is what `FindElement` reports. */
  lemma FindElementAt(s: string, from: nat, open: string, close: string, p: nat, e: nat)
    requires from <= p <= |s| && ElementAt(s, p, open, close) == Some(e)
    requires forall q :: from <= q < p ==> ElementAt(s, q, open, close).None?
    ensures FindElement(s, from, open, close) == Some((p, e))
  {
    FindElementIsLeftmost(s, from, open, close);
  }

  /** `<` opens `<dc:date>` and occurs nowhere else in it or in the marker. */
  lemma LessThanPlaces()
    ensures DateOpen[0] == '<' && DateOpen[1] == 'd' && DateClose[1] == '/'
    ensures forall j :: 1 <= j < |DateOpen| ==> DateOpen[j] != '<'
    ensures forall j :: 0 <= j < |Marker| ==> Marker[j] != '<'
  {
    assert DateOpen[1..] == "dc:date>";
    assert '<' !in "dc:date>";
    forall j | 1 <= j < |DateOpen| ensures DateOpen[j] != '<' {
      assert DateOpen[j] == DateOpen[1..][j - 1];
    }
    assert '<' !in Marker;
  }

  /** What the date search on the old text found: `<title>` first at
      `title`, and after it and the marker the first date element, whose
      text runs from `ts` to `e`. */
  predicate FirstDateAfterMarker(raw: string, title: nat, ts: nat, e: nat) {
    && At(raw, title, TitleOpen)
    && (forall p :: 0 <= p < title ==> !At(raw, p, TitleOpen))
    && title + |TitleOpen| + |Marker| + |DateOpen| <= ts <= |raw|
    && ElementAt(raw, ts - |DateOpen|, DateOpen, DateClose) == Some(e)
    && (forall q :: title + |TitleOpen| + |Marker| <= q < ts - |DateOpen| ==>
          ElementAt(raw, q, DateOpen, DateClose).None?)
  }

  /** How the rewritten text `x` is made from the old text: the old text up
      to `<title>`, the old text from after the marker up to the date text,
      the new date, and the old text from `</dc:date>` on. */
  predicate Rewritten(raw: string, x: string, title: nat, ts: nat, e: nat, date: string) {
    && title + |TitleOpen| + |Marker| <= ts && e <= |raw|
    && |x| == ts - |Marker| + |date| + (|raw| - e)
    && Window(x, 0, raw, 0, title + |TitleOpen|)
    && Window(x, title + |TitleOpen|, raw, title + |TitleOpen| + |Marker|, ts - |Marker| - (title + |TitleOpen|))
    && Window(x, ts - |Marker|, date, 0, |date|)
    && Window(x, ts - |Marker| + |date|, raw, e, |raw| - e)
  }

  /** What a marked match tells about the old text. */
  lemma MarkedMatchFacts(raw: string, m: DateMatch)
    requires MatchDate(raw) == Some(m) && m.marked
    ensures FirstDateAfterMarker(raw, m.title, m.textStart, m.textEnd)
    ensures At(raw, m.title + |TitleOpen|, Marker)
  {
    MatchedParts(raw, m);
    MarkedAfterTitle(raw, m.title, m);
  }

  /** The same, from the parts of the match. */
  lemma MarkedAfterTitle(raw: string, title: nat, m: DateMatch)
    requires IndexOf(raw, TitleOpen, 0) == Some(title) && At(raw, title + |TitleOpen|, Marker)
    requires DateAfter(raw, title, true) == Some(m)
    ensures FirstDateAfterMarker(raw, title, m.textStart, m.textEnd)
  {
    MarkedElementFound(raw, title, m);
    FindElementIsLeftmost(raw, title + |TitleOpen| + |Marker|, DateOpen, DateClose);
  }

  /** A match names the first `<title>`, whether the marker follows it, and
      what the search after it found. */
  lemma MatchedParts(raw: string, m: DateMatch)
    requires MatchDate(raw) == Some(m)
    ensures IndexOf(raw, TitleOpen, 0) == Some(m.title)
    ensures At(raw, m.title + |TitleOpen|, Marker) == m.marked
    ensures DateAfter(raw, m.title, m.marked) == Some(m)
  {
  }

  /** After a marked title, the search found the element whose text `m` names. */
  lemma MarkedElementFound(raw: string, title: nat, m: DateMatch)
    requires title + |TitleOpen| + |Marker| <= |raw| && DateAfter(raw, title, true) == Some(m)
    ensures FindElement(raw, title + |TitleOpen| + |Marker|, DateOpen, DateClose) ==
      Some((m.textStart - |DateOpen|, m.textEnd))
  {
  }

  /** The spliced text is made from the old one as `Rewritten` says. */
  lemma SplicedWindows(raw: string, m: DateMatch, date: string)
    requires m.marked
    requires m.title + |TitleOpen| + |Marker| <= m.textStart <= m.textEnd <= |raw|
    requires At(raw, m.title + |TitleOpen|, Marker)
    ensures Rewritten(raw, Splice(raw, m, date), m.title, m.textStart, m.textEnd, date)
  {
    PasteUndo(raw, m.title + |TitleOpen|, Marker, m.textStart, m.textEnd, date);
    PiecesAsWindows(raw, Splice(raw, m, date), m.title, m.textStart, m.textEnd, date);
  }

  /** A text cut into the four pieces of `Rewritten` is made as it says. */
  lemma PiecesAsWindows(raw: string, x: string, title: nat, ts: nat, e: nat, date: string)
    requires title + |TitleOpen| + |Marker| <= ts <= e <= |raw|
    requires |x| == ts - |Marker| + |date| + (|raw| - e)
    requires x[..title + |TitleOpen|] == raw[..title + |TitleOpen|]
    requires x[title + |TitleOpen|..ts - |Marker|] == raw[title + |TitleOpen| + |Marker|..ts]
    requires x[ts - |Marker|..ts - |Marker| + |date|] == date
    requires x[ts - |Marker| + |date|..] == raw[e..]
    ensures Rewritten(raw, x, title, ts, e, date)
  {
    var t := title + |TitleOpen|;
    var s := ts - |Marker|;
    assert x[0..t] == x[..t] && raw[0..t] == raw[..t];
    WindowOfSlices(x, 0, raw, 0, t);
    WindowOfSlices(x, t, raw, t + |Marker|, s - t);
    assert date[0..|date|] == date;
    WindowOfSlices(x, s, date, 0, |date|);
    assert x[s + |date|..|x|] == x[s + |date|..];
    assert raw[e..|raw|] == raw[e..];
    WindowOfSlices(x, s + |date|, raw, e, |raw| - e);
  }

  /** In the rewritten text `x`, `<` first follows the date text `date` at
      `s` where the old text had its `</dc:date>`. */
  lemma LessThanAfterDate(raw: string, x: string, s: nat, e: nat, date: string)
    requires '<' !in date && At(raw, e, DateClose)
    requires Window(x, s, date, 0, |date|)
    requires Window(x, s + |date|, raw, e, |raw| - e)
    ensures Find(x, '<', s) == s + |date|
    ensures At(x, s + |date|, DateClose)
  {
    AtChars(raw, e, DateClose);
    CharInWindow(x, s + |date|, raw, e, |raw| - e, s + |date|);
    FindAt(x, '<', s, s + |date|);
    AtInWindow(x, s + |date|, raw, e, |raw| - e, s + |date|, DateClose);
  }

  /** In the rewritten text `x` the date element starts four characters
      earlier than in the old text, and its text is the new date. Here `t`
      is where the marker stood and `ts` where the old date text started. */
  lemma ElementMoved(raw: string, x: string, t: nat, ts: nat, e: nat, date: string)
    requires t + |Marker| + |DateOpen| <= ts <= |raw|
    requires ElementAt(raw, ts - |DateOpen|, DateOpen, DateClose) == Some(e)
    requires |date| > 0 && '<' !in date
    requires Window(x, t, raw, t + |Marker|, ts - |Marker| - t)
    requires Window(x, ts - |Marker|, date, 0, |date|)
    requires Window(x, ts - |Marker| + |date|, raw, e, |raw| - e)
    ensures ElementAt(x, ts - |DateOpen| - |Marker|, DateOpen, DateClose) == Some(ts - |Marker| + |date|)
  {
    AtInWindow(x, t, raw, t + |Marker|, ts - |Marker| - t, ts - |DateOpen| - |Marker|, DateOpen);
    LessThanAfterDate(raw, x, ts - |Marker|, e, date);
  }

  /** Two `<dc:date>` openings never overlap, so the first `<` after the
      earlier one comes no later than the later one. */
  lemma NextOpeningAfter(raw: string, q: nat, k: nat)
    requires q < k && At(raw, q, DateOpen) && At(raw, k, DateOpen)
    ensures q + |DateOpen| <= k
    ensures Find(raw, '<', q + |DateOpen|) <= k
  {
    LessThanPlaces();
    AtChars(raw, q, DateOpen);
    AtChars(raw, k, DateOpen);
    FindSkips(raw, '<', q + |DateOpen|);
  }

  /** Between the marker and the moved element the rewritten text `x` holds
      no date element: one there would have been one in the old text, four
      characters later, before the element at `ts - |DateOpen|`. */
  lemma NoElementBefore(raw: string, x: string, t: nat, ts: nat, e: nat, date: string, q: nat)
    requires AroundElement(raw, x, t, ts, e, date)
    requires t <= q && q + |Marker| + |DateOpen| < ts
    ensures ElementAt(x, q, DateOpen, DateClose).None?
  {
    AtInWindow(x, t, raw, t + |Marker|, ts - |Marker| - t, q, DateOpen);
    if At(x, q, DateOpen) {
      NoElementAtOpening(raw, x, t, ts, q);
    }
  }

  /** The case of `NoElementBefore` where `<dc:date>` does stand at `q`. */
  lemma NoElementAtOpening(raw: string, x: string, t: nat, ts: nat, q: nat)
    requires t <= q && q + |Marker| + |DateOpen| < ts <= |raw|
    requires At(raw, ts - |DateOpen|, DateOpen) && At(raw, q + |Marker|, DateOpen)
    requires ElementAt(raw, q + |Marker|, DateOpen, DateClose).None?
    requires Window(x, t, raw, t + |Marker|, ts - |Marker| - t)
    ensures ElementAt(x, q, DateOpen, DateClose).None?
  {
    var q' := q + |Marker|;
    NextOpeningAfter(raw, q', ts - |DateOpen|);
    var f := Find(raw, '<', q' + |DateOpen|);
    FindInWindow(x, t, raw, t + |Marker|, ts - |Marker| - t, '<', q + |DateOpen|);
    CloseMoved(raw, x, t, ts, f);
  }

  /** `</dc:date>` stands at `f - 4` in the rewritten text exactly when it
      stands at `f` in the old text, for `f` up to the old element at
      `ts - |DateOpen|` (where neither text has it). */
  lemma CloseMoved(raw: string, x: string, t: nat, ts: nat, f: nat)
    requires t + |Marker| <= f <= ts - |DateOpen| && ts <= |raw|
    requires At(raw, ts - |DateOpen|, DateOpen)
    requires Window(x, t, raw, t + |Marker|, ts - |Marker| - t)
    ensures At(x, f - |Marker|, DateClose) == At(raw, f, DateClose)
  {
    var n := ts - |Marker| - t;
    var k := ts - |DateOpen|;
    if f < k {
      AtInWindow(x, t, raw, t + |Marker|, n, f - |Marker|, DateClose);
    } else {
      LessThanPlaces();
      AtChar(raw, k, DateOpen, k + 1);
      NotAtWhereCharDiffers(raw, k, DateClose, k + 1);
      CharInWindow(x, t, raw, t + |Marker|, n, k - |Marker| + 1);
      NotAtWhereCharDiffers(x, k - |Marker|, DateClose, k - |Marker| + 1);
    }
  }

  /** `<title>` is found where it was, since the text before it is unchanged. */
  lemma TitleFoundAgain(raw: string, x: string, title: nat)
    requires At(raw, title, TitleOpen) && forall p :: 0 <= p < title ==> !At(raw, p, TitleOpen)
    requires Window(x, 0, raw, 0, title + |TitleOpen|)
    ensures IndexOf(x, TitleOpen, 0) == Some(title)
  {
    AtInWindow(x, 0, raw, 0, title + |TitleOpen|, title, TitleOpen);
    forall p | 0 <= p < title ensures !At(x, p, TitleOpen) {
      AtInWindow(x, 0, raw, 0, title + |TitleOpen|, p, TitleOpen);
    }
    IndexOfAt(x, TitleOpen, 0, title);
  }

  /** The date search is settled by its parts: the first `<title>`, no
      marker after it, and what the search after the title finds. */
  lemma UnmarkedMatch(x: string, title: nat, dm: DateMatch)
    requires IndexOf(x, TitleOpen, 0) == Some(title) && !At(x, title + |TitleOpen|, Marker)
    requires title + |TitleOpen| <= |x| && DateAfter(x, title, false) == Some(dm)
    ensures MatchDate(x) == Some(dm)
  {
  }

  /** The search after an unmarked title finds the first date element. */
  lemma ElementFirst(x: string, title: nat, k: nat, e: nat)
    requires title + |TitleOpen| <= k <= |x| && ElementAt(x, k, DateOpen, DateClose) == Some(e)
    requires forall q :: title + |TitleOpen| <= q < k ==> ElementAt(x, q, DateOpen, DateClose).None?
    ensures DateAfter(x, title, false) == Some(DateMatch(title, false, k + |DateOpen|, e))
  {
    FindElementAt(x, title + |TitleOpen|, DateOpen, DateClose, k, e);
    UnmarkedDateAfter(x, title, k, k + |DateOpen|, e);
  }

  /** The date element found after an unmarked title settles the match. */
  lemma UnmarkedDateAfter(x: string, title: nat, k: nat, s: nat, e: nat)
    requires title + |TitleOpen| <= |x|
    requires FindElement(x, title + |TitleOpen|, DateOpen, DateClose) == Some((k, e)) && s == k + |DateOpen|
    ensures DateAfter(x, title, false) == Some(DateMatch(title, false, s, e))
  {
  }

  /** In the rewritten text `x` the first `<title>` is where it was, and no
      marker follows it when the old title had only one. */
  lemma TitleAgain(raw: string, x: string, title: nat, ts: nat, e: nat, date: string)
    requires FirstDateAfterMarker(raw, title, ts, e)
    requires !At(raw, title + |TitleOpen| + |Marker|, Marker)
    requires Rewritten(raw, x, title, ts, e, date)
    ensures IndexOf(x, TitleOpen, 0) == Some(title) && !At(x, title + |TitleOpen|, Marker)
  {
    var t := title + |TitleOpen|;
    TitleFoundAgain(raw, x, title);
    AtInWindow(x, t, raw, t + |Marker|, ts - |Marker| - t, t, Marker);
  }

  /** The part of the rewritten text `x` around the date element: the old
      text from after the marker at `t` up to the date text at `ts`, with
      no date element before the one at `ts - |DateOpen|`; the new date; and
      the old text from `</dc:date>` on. */
  predicate AroundElement(raw: string, x: string, t: nat, ts: nat, e: nat, date: string) {
    && t + |Marker| + |DateOpen| <= ts <= |raw|
    && ElementAt(raw, ts - |DateOpen|, DateOpen, DateClose) == Some(e)
    && (forall q :: t + |Marker| <= q < ts - |DateOpen| ==> ElementAt(raw, q, DateOpen, DateClose).None?)
    && |date| > 0 && '<' !in date
    && Window(x, t, raw, t + |Marker|, ts - |Marker| - t)
    && Window(x, ts - |Marker|, date, 0, |date|)
    && Window(x, ts - |Marker| + |date|, raw, e, |raw| - e)
  }

  /** In the rewritten text `x` the date element has moved four characters
      back, holds the new date, and is still the first one after `t`. */
  lemma ElementAgain(raw: string, x: string, t: nat, ts: nat, e: nat, date: string)
    requires AroundElement(raw, x, t, ts, e, date)
    ensures t <= ts - |DateOpen| - |Marker| <= |x|
    ensures ElementAt(x, ts - |DateOpen| - |Marker|, DateOpen, DateClose) == Some(ts - |Marker| + |date|)
    ensures forall q :: t <= q < ts - |DateOpen| - |Marker| ==>
      ElementAt(x, q, DateOpen, DateClose).None?
  {
    ElementMoved(raw, x, t, ts, e, date);
    forall q | t <= q < ts - |DateOpen| - |Marker|
      ensures ElementAt(x, q, DateOpen, DateClose).None?
    {
      NoElementBefore(raw, x, t, ts, e, date, q);
    }
  }

  /** The search after the title of the rewritten text `x` finds the moved
      date element, holding the new date. */
  lemma DateAgain(raw: string, x: string, title: nat, ts: nat, e: nat, date: string)
    requires AroundElement(raw, x, title + |TitleOpen|, ts, e, date)
    ensures title + |TitleOpen| <= |x|
    ensures DateAfter(x, title, false) == Some(DateMatch(title, false, ts - |Marker|, ts - |Marker| + |date|))
  {
    ElementAgain(raw, x, title + |TitleOpen|, ts, e, date);
    ElementFirst(x, title, ts - |DateOpen| - |Marker|, ts - |Marker| + |date|);
  }

  /** The date search on the rewritten text `x`, given how it is made from
      the old text whose title had one marker: the same `<title>`, no
      marker, and the new date as its date text. */
  lemma RewrittenDateFound(raw: string, x: string, title: nat, ts: nat, e: nat, date: string)
    requires FirstDateAfterMarker(raw, title, ts, e)
    requires !At(raw, title + |TitleOpen| + |Marker|, Marker)
    requires |date| > 0 && '<' !in date
    requires Rewritten(raw, x, title, ts, e, date)
    ensures MatchDate(x) == Some(DateMatch(title, false, ts - |Marker|, ts - |Marker| + |date|))
  {
    TitleAgain(raw, x, title, ts, e, date);
    DateAgain(raw, x, title, ts, e, date);
    UnmarkedMatch(x, title, DateMatch(title, false, ts - |Marker|, ts - |Marker| + |date|));
  }

  /** With a second marker the rewritten title still starts with one: the
      same `<title>` is found and the marker follows it. */
  lemma SecondMarkerKept(raw: string, x: string, title: nat, ts: nat, e: nat, date: string)
    requires FirstDateAfterMarker(raw, title, ts, e)
    requires At(raw, title + |TitleOpen| + |Marker|, Marker)
    requires Rewritten(raw, x, title, ts, e, date)
    ensures IndexOf(x, TitleOpen, 0) == Some(title) && At(x, title + |TitleOpen|, Marker)
  {
    var t := title + |TitleOpen|;
    TitleFoundAgain(raw, x, title);
    AtInWindow(x, t, raw, t + |Marker|, ts - |Marker| - t, t, Marker);
  }

  /** The title does not carry a second marker after the first. */
  predicate NoSecondMarker(raw: string) {
    MatchDate(raw).Some? && MatchDate(raw).value.marked ==>
      !At(raw, MatchDate(raw).value.title + |TitleOpen| + |Marker|, Marker)
  }

  /** Dating an article that `get_date` has already dated gives it back
      unchanged, whatever the stored dates and the probe: an unmarked text is
      read as before, and a rewritten one has lost its marker and states the
      resolved date. */
  lemma RedatingIsStable(a: Article, b: Article, ref: map<nat, int>, probe: nat -> Response,
                         ref': map<nat, int>, probe': nat -> Response, text: IsoText)
    requires RoundTrips(text) && Dated(a, ref, probe, text) == Ok(b)
    requires NoSecondMarker(a.raw)
    ensures Dated(b, ref', probe', text) == Ok(b)
  {
    var m := MatchDate(a.raw).value;
    if m.marked {
      var date := text.format(b.date);
      MarkedMatchFacts(a.raw, m);
      SplicedWindows(a.raw, m, date);
      RewrittenDateFound(a.raw, b.raw, m.title, m.textStart, m.textEnd, date);
      SpliceUndo(a.raw, m, date);
      assert DateText(b.raw) == date;
    }
  }

  /** With a second marker, the rewritten title still starts with one, so
      whenever the next run's date search succeeds it reports the article
      as paid; having no stored date in the first dating pass, that run
      probes the page again. */
  lemma SecondMarkerStays(a: Article, b: Article, ref: map<nat, int>, probe: nat -> Response, text: IsoText)
    requires Dated(a, ref, probe, text) == Ok(b)
    requires !NoSecondMarker(a.raw)
    ensures MatchDate(b.raw).Some? ==> MatchDate(b.raw).value.marked
  {
    var m := MatchDate(a.raw).value;
    var date := text.format(b.date);
    MarkedMatchFacts(a.raw, m);
    SplicedWindows(a.raw, m, date);
    SecondMarkerKept(a.raw, b.raw, m.title, m.textStart, m.textEnd, date);
  }

  /** A pass in which every element is its own image gives the list back. */
  lemma {:induction false} MapAllFixed<T, E>(s: seq<T>, f: T -> Result<T, E>)
    requires forall i :: 0 <= i < |s| ==> f(s[i]) == Ok(s[i])
    ensures MapAll(s, f) == Ok(s)
  {
    if s != [] {
      MapAllFixed(s[..|s| - 1], f);
      assert s[..|s| - 1] + [s[|s| - 1]] == s;
    }
  }

  /** The articles a dating pass produced, dated again on the next run with
      no stored dates and any probe, come back unchanged, provided no title
      carried a second marker. */
  lemma DatedListIsStable(s: seq<Article>, r: seq<Article>, ref: map<nat, int>, probe: nat -> Response,
                          probe': nat -> Response, text: IsoText)
    requires RoundTrips(text) && DatedAll(s, ref, probe, text) == Ok(r)
    requires forall i :: 0 <= i < |s| ==> NoSecondMarker(s[i].raw)
    ensures DatedAll(r, map[], probe', text) == Ok(r)
  {
    forall i | 0 <= i < |r| ensures Dater(map[], probe', text)(r[i]) == Ok(r[i]) {
      RedatingIsStable(s[i], r[i], ref, probe, map[], probe', text);
    }
    MapAllFixed(r, Dater(map[], probe', text));
  }
}

=== FILE: retention.dfy ===
/** The retention pass: walking the sorted list newest first, every article
    still behind the paywall is kept, and only the first twenty freely
    readable ones are. */
module Retention {
  import opened Articles
  import opened Selection
  import opened Sorting

  /** How many freely readable articles the state keeps (`count = 20`). */
  const FreeQuota: nat := 20

  function Min(a: nat, b: nat): nat {
    if a <= b then a else b
  }

  /** What the loop keeps of `s` at `now` when `quota` freely readable
      articles may still be kept: an article dated at or before `now` takes
      one unit of the quota, or is dropped when none is left; a later one is
      always kept. */
  function Kept(s: seq<Article>, now: int, quota: nat): (r: seq<Article>)
    ensures |r| <= |s|
  {
    if s == [] then []
    else if s[0].date <= now then
      if quota == 0 then Kept(s[1..], now, 0)
      else [s[0]] + Kept(s[1..], now, quota - 1)
    else [s[0]] + Kept(s[1..], now, quota)
  }

  /** The loop over the sorted items that builds the new state. */
  method Retain(items: seq<Article>, now: int) returns (local: seq<Article>)
    ensures local == Kept(items, now, FreeQuota)
  {
    var count: int := FreeQuota;
    local := [];
    for i := 0 to |items|
      invariant 0 <= count <= FreeQuota
      invariant local + Kept(items[i..], now, count) == Kept(items, now, FreeQuota)
    {
      var article := items[i];
      ghost var rest := items[i..];
      assert rest[0] == article && rest[1..] == items[i + 1..];
      if article.date <= now {
        if count <= 0 {
          assert Kept(rest, now, count) == Kept(items[i + 1..], now, 0);
          continue;
        }
        count := count - 1;
      }
      assert Kept(rest, now, if article.date <= now then count + 1 else count) ==
        [article] + Kept(items[i + 1..], now, count);
      assert local + [article] + Kept(items[i + 1..], now, count) ==
        local + ([article] + Kept(items[i + 1..], now, count));
      local := local + [article];
    }
    assert items[|items|..] == [];
  }

  /** Every article that is not yet freely readable is kept, in order. */
  lemma {:induction false} KeepsEveryPaidArticle(s: seq<Article>, now: int, quota: nat)
    ensures Filter(Kept(s, now, quota), After(now)) == Filter(s, After(now))
  {
    if s != [] {
      FilterCons(s[0], s[1..], After(now));
      assert [s[0]] + s[1..] == s;
      if s[0].date <= now {
        if quota == 0 {
          KeepsEveryPaidArticle(s[1..], now, 0);
        } else {
          KeepsEveryPaidArticle(s[1..], now, quota - 1);
          FilterCons(s[0], Kept(s[1..], now, quota - 1), After(now));
        }
      } else {
        KeepsEveryPaidArticle(s[1..], now, quota);
        FilterCons(s[0], Kept(s[1..], now, quota), After(now));
      }
    }
  }

  /** The freely readable articles kept are exactly the first `quota` of
      them (all of them when there are fewer). */
  lemma {:induction false} KeepsFirstFreeArticles(s: seq<Article>, now: int, quota: nat)
    ensures Filter(Kept(s, now, quota), AtMost(now)) == FirstFree(s, now, quota)
  {
    if s != [] {
      var q := if s[0].date <= now && quota > 0 then quota - 1 else quota;
      KeepsFirstFreeArticles(s[1..], now, q);
      FreeStep(s, now, quota);
    }
  }

  /** The first `quota` articles of `s` dated at or before `now`, or all of them
      when there are fewer. */
  function FirstFree(s: seq<Article>, now: int, quota: nat): (r: seq<Article>)
    ensures |r| <= quota
  {
    var free := Filter(s, AtMost(now));
    free[..Min(quota, |free|)]
  }

  /** One step of the loop keeps the kept free articles a prefix of the free ones. */
  lemma FreeStep(s: seq<Article>, now: int, quota: nat)
    requires s != []
    requires var q := if s[0].date <= now && quota > 0 then quota - 1 else quota;
      Filter(Kept(s[1..], now, q), AtMost(now)) == FirstFree(s[1..], now, q)
    ensures Filter(Kept(s, now, quota), AtMost(now)) == FirstFree(s, now, quota)
  {
    FilterCons(s[0], s[1..], AtMost(now));
    assert [s[0]] + s[1..] == s;
    var free := Filter(s[1..], AtMost(now));
    if s[0].date > now {
      FilterCons(s[0], Kept(s[1..], now, quota), AtMost(now));
    } else if quota > 0 {
      FilterCons(s[0], Kept(s[1..], now, quota - 1), AtMost(now));
      TakeCons(s[0], free, Min(quota - 1, |free|));
    }
  }

  lemma TakeCons(x: Article, t: seq<Article>, n: nat)
    requires n <= |t|
    ensures ([x] + t)[..n + 1] == [x] + t[..n]
  {
  }

  /** The loop only drops articles: what it keeps is a subsequence of its input. */
  lemma {:induction false} KeptIsSubseq(s: seq<Article>, now: int, quota: nat)
    ensures Subseq(Kept(s, now, quota), s)
  {
    if s != [] {
      var q := if s[0].date <= now && quota > 0 then quota - 1 else quota;
      KeptIsSubseq(s[1..], now, q);
      var rest := Kept(s[1..], now, q);
      if s[0].date <= now && quota == 0 {
        SubseqSkip(rest, s[1..], s[0]);
        assert [s[0]] + s[1..] == s;
      } else {
        assert Kept(s, now, quota) == [s[0]] + rest;
        assert ([s[0]] + rest)[1..] == rest;
      }
    }
  }

  /** With quota for every freely readable article, the loop keeps everything. */
  lemma {:induction false} KeepsAllWithinQuota(s: seq<Article>, now: int, quota: nat)
    requires |Filter(s, AtMost(now))| <= quota
    ensures Kept(s, now, quota) == s
  {
    if s != [] {
      FilterCons(s[0], s[1..], AtMost(now));
      assert [s[0]] + s[1..] == s;
      if s[0].date <= now {
        KeepsAllWithinQuota(s[1..], now, quota - 1);
      } else {
        KeepsAllWithinQuota(s[1..], now, quota);
      }
    }
  }
}

=== FILE: selection.dfy ===
/** Order-keeping selections on article lists: the `filter(...)` calls of the
    script and what it means for one list to be taken from another. */
module Selection {
  import opened Articles

  /** The conditions the script filters and counts by. */
  datatype Cond =
    | Before(t: int)         // dated strictly before `t`
    | AtMost(t: int)         // dated at or before `t`: freely readable at `t`
    | After(t: int)          // dated strictly after `t`: still paid at `t`
    | On(t: int)             // dated exactly `t`
    | IdNotIn(ids: set<nat>) // an article number outside `ids`

  predicate Holds(c: Cond, a: Article) {
    match c
    case Before(t) => a.date < t
    case AtMost(t) => a.date <= t
    case After(t) => a.date > t
    case On(t) => a.date == t
    case IdNotIn(ids) => a.id !in ids
  }

  /** `list(filter(...))`: the articles meeting `c`, in their original order. */
  function Filter(s: seq<Article>, c: Cond): (r: seq<Article>)
    ensures |r| <= |s|
    ensures forall i :: 0 <= i < |r| ==> Holds(c, r[i])
  {
    if s == [] then []
    else (if Holds(c, s[0]) then [s[0]] else []) + Filter(s[1..], c)
  }

  /** Filtering a single article. */
  lemma FilterOne(x: Article, c: Cond)
    ensures Filter([x], c) == if Holds(c, x) then [x] else []
  {
    assert [x][1..] == [];
  }

  /** Filtering a list with a first article. */
  lemma FilterCons(x: Article, t: seq<Article>, c: Cond)
    ensures Filter([x] + t, c) == (if Holds(c, x) then [x] else []) + Filter(t, c)
  {
    assert ([x] + t)[0] == x && ([x] + t)[1..] == t;
  }

  /** An article survives the filter exactly when it was in the list and meets the condition. */
  lemma {:induction false} FilterMembers(s: seq<Article>, c: Cond, a: Article)
    ensures a in Filter(s, c) <==> a in s && Holds(c, a)
  {
    if s != [] {
      FilterMembers(s[1..], c, a);
      assert a in s <==> a == s[0] || a in s[1..];
    }
  }

  /** Filtering a concatenation filters each part. */
  lemma {:induction false} FilterConcat(a: seq<Article>, b: seq<Article>, c: Cond)
    ensures Filter(a + b, c) == Filter(a, c) + Filter(b, c)
  {
    if a == [] {
      assert a + b == b;
    } else {
      assert (a + b)[0] == a[0] && (a + b)[1..] == a[1..] + b;
      FilterConcat(a[1..], b, c);
    }
  }

  /** `a` can be obtained from `b` by deleting elements. */
  predicate Subseq(a: seq<Article>, b: seq<Article>)
    decreases |b|
  {
    a == [] || (b != [] && if a[0] == b[0] then Subseq(a[1..], b[1..]) else Subseq(a, b[1..]))
  }

  /** A list with a first element added in front of both sides stays a subsequence. */
  lemma {:induction false} SubseqSkip(a: seq<Article>, b: seq<Article>, x: Article)
    requires Subseq(a, b)
    ensures Subseq(a, [x] + b)
    decreases |b|, 1
  {
    if a != [] && a[0] == x {
      // [x] + b starts with a[0]: keep it and drop it from `b` instead.
      SubseqDropFirst(a, b);
      assert ([x] + b)[1..] == b;
    } else {
      assert ([x] + b)[1..] == b;
    }
  }

  /** Removing the first element of a subsequence keeps it a subsequence. */
  lemma {:induction false} SubseqDropFirst(a: seq<Article>, b: seq<Article>)
    requires a != [] && Subseq(a, b)
    ensures Subseq(a[1..], b)
    decreases |b|, 0
  {
    if a[0] == b[0] {
      if a[1..] != [] {
        SubseqSkip(a[1..], b[1..], b[0]);
        assert [b[0]] + b[1..] == b;
      }
    } else {
      SubseqDropFirst(a, b[1..]);
      if a[1..] != [] {
        SubseqSkip(a[1..], b[1..], b[0]);
        assert [b[0]] + b[1..] == b;
      }
    }
  }

  /** A filtered list is a subsequence of the list. */
  lemma {:induction false} FilterIsSubseq(s: seq<Article>, c: Cond)
    ensures Subseq(Filter(s, c), s)
  {
    if s != [] {
      FilterIsSubseq(s[1..], c);
      if Holds(c, s[0]) {
        assert Filter(s, c) == [s[0]] + Filter(s[1..], c);
        assert Filter(s, c)[1..] == Filter(s[1..], c);
      } else {
        assert Filter(s, c) == Filter(s[1..], c);
        SubseqSkip(Filter(s[1..], c), s[1..], s[0]);
        assert [s[0]] + s[1..] == s;
      }
    }
  }

  /** Everything in a subsequence comes from the list. */
  lemma {:induction false} SubseqMembers(a: seq<Article>, b: seq<Article>, x: Article)
    requires Subseq(a, b) && x in a
    ensures x in b
    decreases |b|
  {
    if a[0] == b[0] {
      if x != a[0] {
        assert x in a[1..];
        SubseqMembers(a[1..], b[1..], x);
      }
    } else {
      SubseqMembers(a, b[1..], x);
    }
    assert x in b[1..] ==> x in b;
  }
}

=== FILE: sorting.dfy ===
/** `sorted(items, key=lambda article: article.date, reverse=True)`: newest
    first, and stable, so articles with the same date keep their order. */
module Sorting {
  import opened Articles
  import opened Selection

  predicate NewestFirst(s: seq<Article>) {
    forall i, j :: 0 <= i < j < |s| ==> s[i].date >= s[j].date
  }

  /** `x` put in front of the first article of `t` that is not newer than it. */
  function InsertNewest(x: Article, t: seq<Article>): (r: seq<Article>)
    ensures |r| == |t| + 1
  {
    if t == [] || x.date >= t[0].date then [x] + t
    else [t[0]] + InsertNewest(x, t[1..])
  }

  /** Insertion from the back: each article goes in front of the equally
      dated articles that came after it in the input. */
  function SortNewestFirst(s: seq<Article>): (r: seq<Article>)
    ensures |r| == |s|
  {
    if s == [] then [] else InsertNewest(s[0], SortNewestFirst(s[1..]))
  }

  /** Inserting adds `x` and loses nothing. */
  lemma {:induction false} InsertIsPermutation(x: Article, t: seq<Article>)
    ensures multiset(InsertNewest(x, t)) == multiset(t) + multiset{x}
  {
    if t != [] && x.date < t[0].date {
      InsertIsPermutation(x, t[1..]);
      assert t == [t[0]] + t[1..];
    }
  }

  /** The sorted list is a permutation of its input. */
  lemma {:induction false} SortIsPermutation(s: seq<Article>)
    ensures multiset(SortNewestFirst(s)) == multiset(s)
  {
    if s != [] {
      SortIsPermutation(s[1..]);
      InsertIsPermutation(s[0], SortNewestFirst(s[1..]));
      assert s == [s[0]] + s[1..];
    }
  }

  /** No article of `s` is dated after `b`. */
  predicate NoneAfter(s: seq<Article>, b: int) {
    forall k :: 0 <= k < |s| ==> s[k].date <= b
  }

  lemma {:induction false} InsertKeepsNoneAfter(x: Article, t: seq<Article>, b: int)
    requires NoneAfter(t, b) && x.date <= b
    ensures NoneAfter(InsertNewest(x, t), b)
  {
    if t != [] && x.date < t[0].date {
      InsertKeepsNoneAfter(x, t[1..], b);
      var r := InsertNewest(x, t);
      forall k | 0 <= k < |r| ensures r[k].date <= b {
        if 0 < k {
          assert r[k] == InsertNewest(x, t[1..])[k - 1];
        }
      }
    }
  }

  lemma {:induction false} InsertKeepsNewestFirst(x: Article, t: seq<Article>)
    requires NewestFirst(t)
    ensures NewestFirst(InsertNewest(x, t))
  {
    var r := InsertNewest(x, t);
    if t == [] || x.date >= t[0].date {
      forall i, j | 0 <= i < j < |r| ensures r[i].date >= r[j].date {
        assert r[j] == t[j - 1];
        if 0 < i {
          assert r[i] == t[i - 1];
        }
      }
    } else {
      var rest := InsertNewest(x, t[1..]);
      NewestFirstTail(t);
      InsertKeepsNewestFirst(x, t[1..]);
      HeadIsNewest(t);
      InsertKeepsNoneAfter(x, t[1..], t[0].date);
      forall i, j | 0 <= i < j < |r| ensures r[i].date >= r[j].date {
        assert r[j] == rest[j - 1];
        if 0 < i {
          assert r[i] == rest[i - 1];
        }
      }
    }
  }

  /** The sorted list is newest first. */
  lemma {:induction false} SortIsNewestFirst(s: seq<Article>)
    ensures NewestFirst(SortNewestFirst(s))
  {
    if s != [] {
      SortIsNewestFirst(s[1..]);
      InsertKeepsNewestFirst(s[0], SortNewestFirst(s[1..]));
    }
  }

  /** Inserting `x` into a newest-first list puts it before the articles of
      its own date and leaves their order alone. */
  lemma {:induction false} InsertKeepsDateOrder(x: Article, t: seq<Article>, d: int)
    requires NewestFirst(t)
    ensures Filter(InsertNewest(x, t), On(d)) == Filter([x], On(d)) + Filter(t, On(d))
  {
    if t == [] || x.date >= t[0].date {
      FilterConcat([x], t, On(d));
    } else {
      var rest := InsertNewest(x, t[1..]);
      NewestFirstTail(t);
      InsertKeepsDateOrder(x, t[1..], d);
      FilterConcat([t[0]], rest, On(d));
      FilterConcat([t[0]], t[1..], On(d));
      assert [t[0]] + t[1..] == t;
      FilterOne(x, On(d));
      FilterOne(t[0], On(d));
      // t[0] is strictly newer than x, so at most one of them is dated `d`.
    }
  }

  lemma NewestFirstTail(t: seq<Article>)
    requires t != [] && NewestFirst(t)
    ensures NewestFirst(t[1..])
  {
    forall i, j | 0 <= i < j < |t[1..]| ensures t[1..][i].date >= t[1..][j].date {
      assert t[1..][i] == t[i + 1] && t[1..][j] == t[j + 1];
    }
  }

  /** The sort is stable: for every date, the articles of that date come out
      in the order they went in. */
  lemma {:induction false} SortIsStable(s: seq<Article>, d: int)
    ensures Filter(SortNewestFirst(s), On(d)) == Filter(s, On(d))
  {
    if s != [] {
      SortIsStable(s[1..], d);
      SortIsNewestFirst(s[1..]);
      InsertKeepsDateOrder(s[0], SortNewestFirst(s[1..]), d);
      FilterConcat([s[0]], s[1..], On(d));
      calc {
        Filter(SortNewestFirst(s), On(d));
        Filter(InsertNewest(s[0], SortNewestFirst(s[1..])), On(d));
        Filter([s[0]], On(d)) + Filter(SortNewestFirst(s[1..]), On(d));
        Filter([s[0]], On(d)) + Filter(s[1..], On(d));
        Filter([s[0]] + s[1..], On(d));
        { assert [s[0]] + s[1..] == s; }
        Filter(s, On(d));
      }
    }
  }

  /** The first article of a newest-first list is at least as new as the rest. */
  lemma HeadIsNewest(t: seq<Article>)
    requires t != [] && NewestFirst(t)
    ensures NoneAfter(t[1..], t[0].date)
  {
    forall k | 0 <= k < |t[1..]| ensures t[1..][k].date <= t[0].date {
      assert t[1..][k] == t[k + 1];
    }
  }

  /** A list is newest first when its tail is and its head is newest. */
  lemma PrependNewest(a: seq<Article>)
    requires a != [] && NewestFirst(a[1..]) && NoneAfter(a[1..], a[0].date)
    ensures NewestFirst(a)
  {
    forall i, j | 0 <= i < j < |a| ensures a[i].date >= a[j].date {
      assert a[j] == a[1..][j - 1];
      if 0 < i {
        assert a[i] == a[1..][i - 1];
      }
    }
  }

  lemma {:induction false} SubseqNoneAfter(a: seq<Article>, b: seq<Article>, x: int)
    requires Subseq(a, b) && NoneAfter(b, x)
    ensures NoneAfter(a, x)
    decreases |b|
  {
    if a != [] {
      assert NoneAfter(b[1..], x) by {
        forall k | 0 <= k < |b[1..]| ensures b[1..][k].date <= x {
          assert b[1..][k] == b[k + 1];
        }
      }
      if a[0] == b[0] {
        SubseqNoneAfter(a[1..], b[1..], x);
        forall k | 0 <= k < |a| ensures a[k].date <= x {
          if 0 < k {
            assert a[k] == a[1..][k - 1];
          }
        }
      } else {
        SubseqNoneAfter(a, b[1..], x);
      }
    }
  }

  /** Dropping articles from a newest-first list keeps it newest first. */
  lemma {:induction false} SubseqKeepsNewestFirst(a: seq<Article>, b: seq<Article>)
    requires Subseq(a, b) && NewestFirst(b)
    ensures NewestFirst(a)
    decreases |b|
  {
    if a != [] {
      NewestFirstTail(b);
      if a[0] == b[0] {
        SubseqKeepsNewestFirst(a[1..], b[1..]);
        HeadIsNewest(b);
        SubseqNoneAfter(a[1..], b[1..], a[0].date);
        PrependNewest(a);
      } else {
        SubseqKeepsNewestFirst(a, b[1..]);
      }
    }
  }

  /** Sorting a list that is already newest first leaves it as it is. */
  lemma {:induction false} SortKeepsSorted(s: seq<Article>)
    requires NewestFirst(s)
    ensures SortNewestFirst(s) == s
  {
    if s != [] {
      NewestFirstTail(s);
      SortKeepsSorted(s[1..]);
      assert [s[0]] + s[1..] == s;
    }
  }
}

=== FILE: text.dfy ===
/** Character classes and leftmost searches on strings, the pieces of the
    regular expressions that the feed script uses. */
module Text {
  import opened Wrappers

  /** `pat` occurs in `s` starting at index `i`. */
  predicate At(s: string, i: int, pat: string) {
    0 <= i && i + |pat| <= |s| && s[i..i + |pat|] == pat
  }

  /** Leftmost occurrence of `pat` in `s` that starts at or after `from`. */
  function IndexOf(s: string, pat: string, from: nat): (r: Option<nat>)
    decreases |s| - from
    ensures r.Some? ==> from <= r.value && At(s, r.value, pat)
    ensures r.Some? ==> forall k :: from <= k < r.value ==> !At(s, k, pat)
    ensures r.None? ==> forall k :: from <= k ==> !At(s, k, pat)
  {
    if from + |pat| > |s| then None
    else if At(s, from, pat) then Some(from)
    else IndexOf(s, pat, from + 1)
  }

  /** An occurrence with none before it from `from` on is what `IndexOf` reports. */
  lemma IndexOfAt(s: string, pat: string, from: nat, t: nat)
    requires from <= t && At(s, t, pat)
    requires forall p :: from <= p < t ==> !At(s, p, pat)
    ensures IndexOf(s, pat, from) == Some(t)
  {
  }

  /** The leftmost position `p` in `from..end` where `f` finds something,
      with what it finds there. */
  function Leftmost<T>(f: nat -> Option<T>, from: nat, end: nat): (r: Option<(nat, T)>)
    decreases end - from
    ensures r.Some? ==> from <= r.value.0 <= end && f(r.value.0) == Some(r.value.1)
  {
    if from > end then None
    else match f(from)
      case Some(x) => Some((from, x))
      case None => Leftmost(f, from + 1, end)
  }

  /** `Leftmost` finds nothing before the position it reports, and nothing at
      all when it reports nothing. */
  lemma {:induction false} LeftmostIsFirst<T>(f: nat -> Option<T>, from: nat, end: nat)
    decreases end - from
    ensures Leftmost(f, from, end).Some? ==> forall p :: from <= p < Leftmost(f, from, end).value.0 ==> f(p).None?
    ensures Leftmost(f, from, end).None? ==> forall p :: from <= p <= end ==> f(p).None?
  {
    if from <= end && f(from).None? {
      LeftmostIsFirst(f, from + 1, end);
    }
  }

  /** Index of the first `c` at or after `from`, or `|s|` when there is none. */
  function Find(s: string, c: char, from: nat): (j: nat)
    requires from <= |s|
    decreases |s| - from
    ensures from <= j <= |s|
    ensures j < |s| ==> s[j] == c
  {
    if from == |s| || s[from] == c then from else Find(s, c, from + 1)
  }

  /** No `c` comes between `from` and what `Find` reports. */
  lemma {:induction false} FindSkips(s: string, c: char, from: nat)
    requires from <= |s|
    decreases |s| - from
    ensures forall k :: from <= k < Find(s, c, from) ==> s[k] != c
  {
    if from < |s| && s[from] != c {
      FindSkips(s, c, from + 1);
    }
  }

  /** A `c` with none before it from `from` on is what `Find` reports. */
  lemma {:induction false} FindAt(s: string, c: char, from: nat, j: nat)
    requires from <= j < |s| && s[j] == c
    requires forall i :: from <= i < j ==> s[i] != c
    decreases j - from
    ensures Find(s, c, from) == j
  {
    if from < j {
      FindAt(s, c, from + 1, j);
    }
  }

  predicate IsDigit(c: char) { '0' <= c <= '9' }

  function DigitValue(c: char): (v: nat)
    requires IsDigit(c)
    ensures v < 10
  {
    c as int - '0' as int
  }

  function DigitChar(v: nat): (c: char)
    requires v < 10
    ensures IsDigit(c) && DigitValue(c) == v
  {
    ('0' as int + v) as char
  }

  predicate AllDigits(s: string) {
    forall i :: 0 <= i < |s| ==> IsDigit(s[i])
  }

  /** Python's `int()` on a run of decimal digits. */
  function Decimal(s: string): (n: nat)
    requires AllDigits(s)
  {
    if s == [] then 0 else Decimal(s[..|s| - 1]) * 10 + DigitValue(s[|s| - 1])
  }

  function Pow10(w: nat): (p: nat)
    ensures p >= 1
  {
    if w == 0 then 1 else 10 * Pow10(w - 1)
  }

  /** The `width` last decimal digits of `n`, with leading zeros. */
  function Digits(n: nat, width: nat): (s: string)
    ensures |s| == width && AllDigits(s)
  {
    if width == 0 then [] else Digits(n / 10, width - 1) + [DigitChar(n % 10)]
  }

  /** Reading back the digits written for a number that fits the width gives the number. */
  lemma {:induction false} DecimalOfDigits(n: nat, width: nat)
    requires n < Pow10(width)
    ensures Decimal(Digits(n, width)) == n
  {
    if width > 0 {
      var q, d := n / 10, n % 10;
      assert n == 10 * q + d && d < 10;
      assert 10 * q <= n < 10 * Pow10(width - 1);
      DecimalOfDigits(q, width - 1);
      var s := Digits(n, width);
      assert s[..|s| - 1] == Digits(q, width - 1);
      assert DigitValue(s[|s| - 1]) == d;
    }
  }

  /** End of the maximal run of digits that starts at `from` (what a greedy `\d+` takes). */
  function DigitEnd(s: string, from: nat): (j: nat)
    requires from <= |s|
    decreases |s| - from
    ensures from <= j <= |s|
    ensures AllDigits(s[from..j])
    ensures j < |s| ==> !IsDigit(s[j])
  {
    if from == |s| || !IsDigit(s[from]) then from else DigitEnd(s, from + 1)
  }

  /** `DigitEnd` stops exactly at the end of a maximal run of digits. */
  lemma {:induction false} DigitEndOfRun(s: string, from: nat, j: nat)
    requires from <= j <= |s| && AllDigits(s[from..j])
    requires j < |s| ==> !IsDigit(s[j])
    decreases j - from
    ensures DigitEnd(s, from) == j
  {
    if from < j {
      assert IsDigit(s[from..j][0]);
      assert s[from + 1..j] == s[from..j][1..];
      DigitEndOfRun(s, from + 1, j);
    }
  }

  /** The characters Python's `\s` matches in a text pattern: those for which
      `str.isspace()` holds. */
  predicate IsSpace(c: char) {
    c in SpaceChars
  }

  const SpaceChars: set<char> :=
    {' ', '\t', '\n', '\U{b}', '\U{c}', '\r', '\U{1c}', '\U{1d}', '\U{1e}', '\U{1f}',
     '\U{85}', '\U{a0}', '\U{1680}', '\U{2000}', '\U{2001}', '\U{2002}', '\U{2003}',
     '\U{2004}', '\U{2005}', '\U{2006}', '\U{2007}', '\U{2008}', '\U{2009}', '\U{200a}',
     '\U{2028}', '\U{2029}', '\U{202f}', '\U{205f}', '\U{3000}'}

  /** End of the maximal run of white space that starts at `from` (a greedy `\s*`). */
  function SpaceEnd(s: string, from: nat): (j: nat)
    requires from <= |s|
    decreases |s| - from
    ensures from <= j <= |s|
    ensures forall k :: from <= k < j ==> IsSpace(s[k])
    ensures j < |s| ==> !IsSpace(s[j])
  {
    if from == |s| || !IsSpace(s[from]) then from else SpaceEnd(s, from + 1)
  }

  /** `SpaceEnd` stops exactly at the end of a maximal run of white space. */
  lemma {:induction false} SpaceEndOfRun(s: string, from: nat, j: nat)
    requires from <= j <= |s|
    requires forall k :: from <= k < j ==> IsSpace(s[k])
    requires j < |s| ==> !IsSpace(s[j])
    decreases j - from
    ensures SpaceEnd(s, from) == j
  {
    if from < j {
      SpaceEndOfRun(s, from + 1, j);
    }
  }
}

=== FILE: wrappers.dfy ===
/** Failure-carrying result types shared by the other modules. */
module Wrappers {

  datatype Option<+T> = None | Some(value: T)

  /** A computation that either yields a value or stops the run with an error. */
  datatype Result<+T, +E> = Ok(value: T) | Err(error: E)
}
